=== FILE: README.md ===
# Subscription, coupon and plan rules of the auth/Stripe service

This project models the billing core of `auth-stripe-service` in Dafny:

- the local subscription record and the commands that change it: create, upgrade, cancel, reactivate, and the payment-method listing;
- the two webhook dispatchers that apply processor events to those records;
- the coupon ledger, meaning the `isValid` check and the coupon endpoints;
- the plan catalogue.

Every Mongo collection is a `Table`: a map from numeric ids to documents, plus the next unused id. `findOne` is modelled as "the first matching document in id order", which makes every lookup deterministic.

The external payment processor is an oracle. Each call it would make is an input to the operation:

- a `Reply` (the record, or a rejection message) when the reply is used;
- an `Ack`/`Nack` when it is not.

A command writes locally only once the reply it depends on has arrived, so a rejected reply writes nothing. Operations also return the request they would send (price data, coupon data, the subscription create or update request), so that the contracts can describe those requests.

Other conventions:

- Time is integer milliseconds passed in as `now`. Processor timestamps are in seconds and are converted with `* 1000`.
- Prices and coupon values are integers.
- JavaScript truthiness of optional strings and numbers is made explicit with `Truthy` and `TruthyNumber`.

Modules follow the source files:

| module | file |
|---|---|
| `Common` | shared vocabulary |
| `Tables` | the collection model |
| `Plans` | `models/Plan.js` |
| `PlanService` | `services/planService.js` |
| `Coupons` | `models/Coupon.js` |
| `CouponController` | `controllers/couponController.js` |
| `Subscriptions` | `models/Subscription.js` |
| `StripeService` | `services/stripeService.js` |
| `StripeController` | `controllers/stripeController.js` |

Behaviours of the code worth knowing:

- **Reactivation ignores the period end.** `reactivateSubscription` reactivates at any time, including after the period has ended.
- **Coupons at creation.** `createSubscription` passes an active coupon through without calling `isValid()`, and never increments `currentUses`.
- **The routed webhook reads a field that does not exist.** It reads `StripeService.stripe`, which the service module never exports. The signature check is therefore modelled as a boolean input rather than as the resulting failure.
- **`currentPeriodEnd` is not declared in the subscription schema.** Subscription creation, the upgrade and the routed webhook all write it. The schema sets no `strict` option, so Mongoose's default strict mode discards the value in `Subscription.create`, in `findByIdAndUpdate`, and in the set-then-save of the webhook. The model keeps the field as the code writes it; see "Left out".

## Model

| member | source | states |
|---|---|---|
| Common.SecondsToMillis | auth-stripe-service/src/services/stripeService.js:177 | a processor timestamp in seconds becomes a whole number of milliseconds that divides back to the same seconds |
| Common.CeilDays | auth-stripe-service/src/services/stripeService.js:331 | the day count is the least whole number of days covering the interval (`Math.ceil`), also for negative intervals |
| Common.Upper | auth-stripe-service/src/controllers/couponController.js:19 | upper-casing an ASCII code maps each letter a-z to its capital, leaves every other character alone, and yields a string with no lower-case ASCII letter |
| Common.UpperIdempotent | auth-stripe-service/src/models/Coupon.js:4-9 | a stored (upper-case) code upper-cases to itself |
| Common.UpperFixesUpper | auth-stripe-service/src/models/Coupon.js:8 | any upper-case string is left unchanged by upper-casing |
| Plans.ParsePlanType | auth-stripe-service/src/models/Plan.js:12-16 | exactly the four enum names parse, and a parsed type prints back to its name |
| Plans.SaveKeepsCatalogueValid | auth-stripe-service/src/models/Plan.js:3-44 | a save that passes the required-field, minimum-price and unique-index checks keeps every document of the catalogue valid |
| Plans.AtMostOnePlanPerNameAndFlag | auth-stripe-service/src/models/Plan.js:44 | in a valid catalogue, two plans with the same name and the same active flag are the same plan |
| PlanService.RecurringInterval | auth-stripe-service/src/services/planService.js:24-28 | no interval for free and lifetime, month for monthly, year for yearly and for an absent type (each as an if-and-only-if) |
| PlanService.PriceRequestRoundTrip | auth-stripe-service/src/services/planService.js:18-22 | the cents sent to the processor are a whole multiple of 100 that converts back to the plan price |
| PlanService.CreatePlan | auth-stripe-service/src/services/planService.js:5-45 | a processor rejection stops creation; a created plan is active and records both external ids and the requested fields; creation keeps the catalogue valid and succeeds whenever the fields and unique keys allow |
| PlanService.InsertByPrice | auth-stripe-service/src/services/planService.js:48 | inserting into a price-ordered list keeps it ordered and distinct and adds exactly the new plan |
| PlanService.SortByPrice | auth-stripe-service/src/services/planService.js:48 | the ascending-price sort keeps exactly the same plans, without duplicates, in non-decreasing price order |
| PlanService.GetPlans | auth-stripe-service/src/services/planService.js:47-49 | a plan is listed if and only if it is active; the list is ascending by price and has no repeats |
| PlanService.GetPlan | auth-stripe-service/src/services/planService.js:51-53 | a plan is returned by id if and only if it exists and is active |
| PlanService.GetFreePlan | auth-stripe-service/src/services/planService.js:105-107 | the result is an active free plan, and there is none exactly when no active free plan exists |
| PlanService.SaveUpdate | auth-stripe-service/src/services/planService.js:87-88 | an update is saved if and only if the updated document passes the schema and index checks, and saving keeps the catalogue valid |
| PlanService.UpdatePlanAsWritten | auth-stripe-service/src/services/planService.js:55-90 | the update as written: a missing or inactive plan is not found, and only that plan changes. A price is minted exactly when the requested price is truthy and differs from the stored one; it is priced in cents with the interval of the requested type alone, and the old price is retired. The stored plan is the request assigned over it. It succeeds exactly when the plan is found, every processor call it makes is accepted, and the patched plan passes the schema and index checks |
| PlanService.AsWrittenZeroPriceKeepsOldExternalPrice | auth-stripe-service/src/services/planService.js:69-87 | as written, a new price of 0 is stored while the old external price stays attached |
| PlanService.AsWrittenRepriceWithoutTypeMintsYearly | auth-stripe-service/src/services/planService.js:76-80 | as written, repricing a monthly plan without restating its type asks for a yearly price |
| PlanService.UpdatePlan | auth-stripe-service/src/services/planService.js:55-90 | each requested field overwrites the stored one. A new external price is minted (and the old one retired) if and only if the price changes, priced in cents for the plan's resulting type. It succeeds exactly when the plan is found and active, every processor call it makes is accepted, and the patched plan passes the schema and index checks |
| PlanService.DeactivatePlan | auth-stripe-service/src/services/planService.js:92-103 | a missing or inactive plan is not found; otherwise, after both processor calls, only the active flag of that plan is cleared, and in a valid catalogue that succeeds exactly when no other inactive plan has the same name |
| PlanService.DeactivatedPlanIsHidden | auth-stripe-service/src/services/planService.js:96-101 | after deactivation the plan is absent from the listing, from lookup by id and from the free-plan lookup, and a second deactivation reports not found |
| Coupons.ParseCouponType | auth-stripe-service/src/models/Coupon.js:10-14 | exactly `percentage` and `amount` parse, and print back to themselves |
| Coupons.IsValidIff | auth-stripe-service/src/models/Coupon.js:61-74 | valid exactly when active, not past `validUntil` (the instant itself still counts), and under `maxUses` when it is set |
| Coupons.IsValidIgnoresValidFrom | auth-stripe-service/src/models/Coupon.js:61-74 | the start of the validity window never affects validity |
| Coupons.IsValidMonotone | auth-stripe-service/src/models/Coupon.js:68 | a coupon valid at some instant was valid at every earlier instant |
| Coupons.SaveKeepsLedgerValid | auth-stripe-service/src/models/Coupon.js:3-58 | saving a coupon that passes the field checks and both unique indexes keeps the ledger valid |
| Coupons.CodeIdentifiesCoupon | auth-stripe-service/src/models/Coupon.js:4-9 | in a valid ledger a code names at most one coupon |
| CouponController.CouponData | auth-stripe-service/src/controllers/couponController.js:17-27 | the processor coupon is once-only, under the given id; a percentage sends exactly `percent_off` = value with no amount or currency, any other kind exactly `amount_off` = value × 100 in "usd" with no percentage |
| CouponController.CouponDataRoundTrip | auth-stripe-service/src/controllers/couponController.js:22-27 | the processor coupon's discount converts back to the local value, and is a percentage exactly for the `percentage` kind |
| CouponController.CreateCoupon | auth-stripe-service/src/controllers/couponController.js:5-47 | a rejected processor coupon creates nothing; a created coupon has the upper-cased code (also the processor id), the schema defaults, the processor's id, and only that row is new; creation keeps the ledger valid and succeeds whenever kind, bounds and unique keys allow |
| CouponController.GetCoupon | auth-stripe-service/src/controllers/couponController.js:60-73 | a missing id is not found; otherwise the stored coupon is returned with its applicable plans populated: every field but that list is the stored one, and the list keeps exactly the referenced plans that exist |
| CouponController.Populated | auth-stripe-service/src/controllers/couponController.js:82 | population keeps exactly the referenced plans that exist |
| CouponController.ActiveWithCode | auth-stripe-service/src/controllers/couponController.js:79-82 | the lookup finds an active coupon with the upper-cased code, and finds none exactly when none exists |
| CouponController.ValidateCoupon | auth-stripe-service/src/controllers/couponController.js:75-124 | not found exactly when no active coupon has the code; otherwise unusable when `isValid` fails, then not applicable when a plan is named, the (populated) list is non-empty and does not contain it; a valid answer reports the code, kind, value and expiry of an active coupon with that code that `isValid` accepts |
| CouponController.UpdateCoupon | auth-stripe-service/src/controllers/couponController.js:147-211 | code, kind, use count and start never change. The processor coupon is reissued under the same code if and only if the value is truthy and differs. Each other field changes only under its own guard, and only that coupon changes. The ledger stays valid. It succeeds exactly when the coupon exists, a reissue (if any) is acknowledged and accepted, and the patched coupon passes the schema and index checks |
| CouponController.DeactivateCoupon | auth-stripe-service/src/controllers/couponController.js:126-145 | a missing id is not found; otherwise, after the processor deletion, only the active flag is cleared, and the ledger stays valid |
| CouponController.DeactivatedCodeIsNotFound | auth-stripe-service/src/controllers/couponController.js:79-89 | once deactivated, the coupon's code is unknown to validation |
| CouponController.ValidateRespectsIsValid | auth-stripe-service/src/controllers/couponController.js:91-97 | validation never answers valid for a coupon whose `isValid` is false |
| Subscriptions.FindByExternal | auth-stripe-service/src/controllers/stripeController.js:166-168 | the lookup by external id returns a row carrying that id, and returns nothing exactly when no row carries it |
| Subscriptions.FindByExternalAfterPut | auth-stripe-service/src/controllers/stripeController.js:198-208 | rewriting a row without touching its external id leaves every lookup by external id unchanged |
| StripeService.CurrentSubscription | auth-stripe-service/src/services/stripeService.js:188-191 | the populated pointer is present exactly when the user's pointer names a stored row |
| StripeService.CouponFor | auth-stripe-service/src/services/stripeService.js:160-166 | a coupon id is passed to the processor only for an existing active coupon, and for such a coupon it is always its external id |
| StripeService.UnusableCouponStillPassed | auth-stripe-service/src/services/stripeService.js:161-166 | an active coupon that `isValid` rejects, because it is expired or used up, is still passed to the processor |
| StripeService.CreateSubscription | auth-stripe-service/src/services/stripeService.js:110-185 | fails for a missing user, a user without a customer id, a user with an active or trialing row, and a missing or inactive plan, and succeeds exactly when those checks pass, the payment method (if given) attaches and the processor accepts; on success exactly one row is added, copying the processor's status, id, period end (seconds x 1000) and cancel flag, with the plan's type and schema defaults; other collections are untouched; no user gains a second running row |
| StripeService.ActivePlanOfType | auth-stripe-service/src/services/stripeService.js:200-204 | the result is an active plan of the type, and there is none exactly when no such plan exists |
| StripeService.ProrationFor | auth-stripe-service/src/services/stripeService.js:206-220 | immediate invoicing if and only if the new price is strictly greater |
| StripeService.UpgradeSubscription | auth-stripe-service/src/services/stripeService.js:187-247 | fails without a current subscription. It succeeds exactly when the user and a current subscription exist, the new plan is active, an active plan of the current row's type exists, and both processor calls are accepted. The comparison plan is the first active plan of the current row's type (the `findOne` result), and the proration follows the strict price comparison. Only plan type, status, period end and cancel flag of the current row change |
| StripeService.SetFlag | auth-stripe-service/src/services/stripeService.js:249-289 | a flag change fails without a current subscription or an accepted reply, and otherwise rewrites only status and cancel flag of the current row |
| StripeService.CancelSubscription | auth-stripe-service/src/services/stripeService.js:249-268 | without a current subscription nothing happens; otherwise only the current row changes, to canceled and cancelling at period end |
| StripeService.ReactivateSubscription | auth-stripe-service/src/services/stripeService.js:270-289 | without a current subscription nothing happens; otherwise only the current row changes, to active and not cancelling, whatever its period end |
| StripeService.CancelThenReactivate | auth-stripe-service/src/services/stripeService.js:262-286 | cancel followed by reactivate restores the row to active and not cancelling, with every other field as before |
| StripeService.ResubscribeThenReactivateBreaksOneLive | auth-stripe-service/src/services/stripeService.js:116-124 | whenever a user cancels their own current subscription, subscribes again successfully into a live status, and reactivates, the user holds two live rows |
| StripeService.CancelCreateReactivateLeavesTwoActive | auth-stripe-service/src/services/stripeService.js:116-124 | a concrete history (one user, one monthly plan: cancel, subscribe again with a card, reactivate) starts with at most one live row per user and ends with two for the same user |
| StripeService.GetPaymentMethods | auth-stripe-service/src/services/stripeService.js:29-53 | fails exactly for a missing user or a missing customer id, and otherwise succeeds. It lists every card in order with its fields, each flagged default exactly when its id is the customer's default, so with distinct ids at most one is flagged |
| StripeService.EndingSoonIff | auth-stripe-service/src/services/stripeService.js:330-335 | rounding up to whole days, "at most 7 days away" is exactly "at most 7 x 24 hours away" |
| StripeService.ServiceSubscriptionUpdated | auth-stripe-service/src/services/stripeService.js:320-336 | an unknown id changes nothing; otherwise the row's status and next billing date are overwritten, and a notice is emitted exactly when the date is at most 7 days away and the user exists (a missing user throws) |
| StripeService.ServiceSubscriptionDeleted | auth-stripe-service/src/services/stripeService.js:338-355 | an unknown id changes nothing; otherwise the row becomes expired and users, plans and coupons never change. With a free plan, the owner is enrolled in it through subscription creation (one new row for the owner on the free plan, nothing else changed) and told; the handler throws exactly when the owner is missing, has no customer id, still has a running subscription, or the processor refuses. Without a free plan, only the expiry is saved |
| StripeService.ServicePaymentSucceeded | auth-stripe-service/src/services/stripeService.js:357-366 | a matched row is stamped as billed now and active; nothing else changes and nobody is notified |
| StripeService.ServicePaymentFailed | auth-stripe-service/src/services/stripeService.js:368-376 | the state never changes; a notice is emitted exactly when the invoice's row and its user exist, and the handler throws exactly when the row exists but its user does not; the notice is a single payment-failed notice to that row's user |
| StripeService.ServiceHandleWebhook | auth-stripe-service/src/services/stripeService.js:291-318 | a bad signature throws without change, an unhandled kind changes nothing, and a failed payment changes no state |
| StripeController.CreateSubscriptionRequest | auth-stripe-service/src/controllers/stripeController.js:23-50 | 400 exactly when `planId` or a truthy payment method is missing. 201 exactly when, besides those, the user has a customer id and no running row, the plan is active, and the attach and the processor succeed. Only 201 writes: exactly one new row for this user and plan is added, and no user gains a second running row |
| StripeController.CreateCustomerRequest | auth-stripe-service/src/controllers/stripeController.js:8-20 | 201 exactly when the processor creates the customer, and then only that user's `stripeCustomerId` is set to the new id; 500 writes nothing; no other collection changes |
| StripeController.CustomerUnblocksCreate | auth-stripe-service/src/controllers/stripeController.js:8-20 | once a non-empty customer id is recorded, creating a subscription for that user no longer fails for a missing user or a missing customer |
| StripeController.UpgradeTarget | auth-stripe-service/src/controllers/stripeController.js:56-61 | only `monthly`, `yearly` and `lifetime` are accepted, never `free` |
| StripeController.UpgradeRequest | auth-stripe-service/src/controllers/stripeController.js:52-81 | 400 exactly for a type outside the three, and 404 exactly when no active plan has that type. 200 exactly when, besides those, the user has a current subscription, an active plan of its current type exists, and both processor calls are accepted. Only 200 writes, and then the current row takes the requested type and keeps its plan id and external id |
| StripeController.CancelRequest | auth-stripe-service/src/controllers/stripeController.js:83-90 | 200 exactly when there is a current subscription and the processor accepts, leaving it canceled and cancelling; 500 writes nothing |
| StripeController.ReactivateRequest | auth-stripe-service/src/controllers/stripeController.js:92-99 | 200 exactly when there is a current subscription and the processor accepts, leaving it active and not cancelling; 500 writes nothing |
| StripeController.GetSubscriptionDetails | auth-stripe-service/src/controllers/stripeController.js:101-119 | a missing user is an error; plan type `free` with no subscription exactly when the pointer is unset or dangling; otherwise the pointed-to row |
| StripeController.CancelShowsInDetails | auth-stripe-service/src/controllers/stripeController.js:83-99 | after a cancellation answers 200, the details view shows the current row canceled and cancelling at period end, every other field as before |
| StripeController.Target | auth-stripe-service/src/controllers/stripeController.js:161-216 | an invoice event targets its subscription only when that is truthy, a subscription event targets its own id, and other kinds target nothing |
| StripeController.HandleWebhook | auth-stripe-service/src/controllers/stripeController.js:147-237 | a bad signature answers 400 without change; otherwise 200, at most the targeted row changes (active and period end, incomplete, the three overwritten fields, or canceled), an unknown kind or id changes nothing, a deletion clears the owner's `currentSubscription` exactly when it pointed at the deleted row and leaves every other user alone, no other event touches users, and only a failed payment notifies: one payment-failed notice, only when the invoice's subscription matches a row whose user exists, and to that user |
| StripeController.FailedPaymentNotifies | auth-stripe-service/src/controllers/stripeController.js:178-196 | a failed payment on a known row notifies its user exactly when that user exists |
| StripeController.WebhookIdempotent | auth-stripe-service/src/controllers/stripeController.js:161-230 | delivering the same event twice leaves the same state as delivering it once, and repeats the same notices |
| StripeController.DispatchersDisagreeOnDeletion | auth-stripe-service/src/controllers/stripeController.js:212-220 | for the same deletion event the routed dispatcher marks the row canceled and the service dispatcher marks it expired |

## Left out

- **Processor-only operations.** `createSetupIntent`, `setDefaultPaymentMethod`, `removePaymentMethod` and `createPaymentIntent` only relay calls to the payment processor and keep no local state. (`createCustomer` also records the customer id on the user and is modelled as `StripeController.CreateCustomerRequest`.)
- **Processor behaviour.** Every processor call is an oracle input. What the processor does with a request is not modelled; only the request the code builds is.
- **Webhook signature verification.** This is a cryptographic library call, so it is a boolean input. In the routed controller, the `TypeError` from reading `StripeService.stripe` (an undefined property) is not reproduced.
- **`StripeController.createCoupon` and `StripeController.validateCoupon`.** They call service methods that do not exist.
- **Other endpoints.** `getCoupons` is a plain listing sorted by creation time, and its timestamps are not modelled. `planController.js` is not modelled as a layer of its own. Its create handler checks required fields in front of `createPlan`. Its update handler checks nothing and always forwards the five keys `name`, `description`, `type`, `price` and `features`; see the `PlanService.UpdatePlan` line below.
- **Email sending.** A notification is modelled only by its kind and recipient. The send is not modelled, and neither is the error the send logs and swallows.
- **Infrastructure.** Authentication, routing, index rebuilding and the frontend are out of scope.
- **Concurrency.** The model is sequential. The race between the running-subscription check and the insert in `createSubscription` is therefore outside it.
- **The User model** is not part of this model. Only a user's `stripeCustomerId` and `currentSubscription` pointer are kept. Nothing in the modelled code sets that pointer when a subscription is created, so the model does not either.
- **Numbers.** Prices and coupon values are integers, so JavaScript floating-point rounding of `price * 100` and `value * 100` is not modelled.
- **Dates.** Dates are integer milliseconds. Invalid date strings are not modelled, and a truthy `validUntil` is modelled as a present, non-zero number.
- **Schema casting.** The minimums, required fields and unique indexes used here are modelled. An enum is modelled only as the datatype that holds its values, so a value outside it cannot be expressed. The plan type and the coupon kind are exceptions: their refusal paths are described in the lines below. Casting failures of other fields, and fields outside the schema that `Object.assign` would copy, are not modelled.
- **Enum failures.** A processor status outside the status enum cannot be expressed: statuses are the enum. The validation failure such a status would cause on save is therefore not modelled. A coupon kind outside its enum is modelled: `CreateCoupon` parses the kind string after the processor call and refuses it.
- **Timestamps.** The schema's `createdAt`/`updatedAt` are not modelled.
- StripeService.ServicePaymentSucceeded: an invoice without a subscription id is treated as matching no row. As written, the lookup runs with an undefined filter value, and the driver's handling of that value is not modelled. ServicePaymentFailed makes the same assumption.
- StripeService.ServiceHandleWebhook: states only the cases where the dispatcher itself decides. The per-kind effects are stated on the four handlers it delegates to.
- PlanService.UpdatePlan: an absent field (`None`) models a direct service call that leaves the key out. Through the route, `planController.updatePlan` always passes all five keys, so an omitted one arrives as `undefined`. `Object.assign` then unsets that required path, and `save()` fails after the processor has already minted and retired prices. `isActive` cannot be patched through the route. A requested `type` outside the plan-type enum cannot be expressed either (the patch holds a `PlanType`). In the source such a type mints a yearly price and retires the old one, and then the enum refuses the save (500), leaving the new price behind. The same holds for `PlanService.UpdatePlanAsWritten`.
- PlanService.UpdatePlanAsWritten: an absent field models a direct service call, and a requested `type` outside the enum cannot be expressed, as for `PlanService.UpdatePlan` above.
- PlanService.CreatePlan: the type is a `PlanType`, so a truthy request type outside the enum (for example `"weekly"`) cannot be expressed. `planController.createPlan` rejects only a falsy type. In the source, such a type creates the product and a yearly price, and then the enum refuses the save (500), leaving both processor objects behind.
- StripeService.CreateSubscription: when the user lookup fails, the source throws a `TypeError`. The model reports this as a named error, `UserNotFound`.
- StripeService.GetPaymentMethods: the card list and the customer's default are taken as given. A processor failure while fetching them, which the source surfaces as a thrown error, is not modelled.
- Common.Upper: upper-cases ASCII letters only. JavaScript's `toUpperCase` also maps non-ASCII letters and can change the length ('ß' becomes 'SS'); codes outside ASCII are not modelled.
- StripeService.CreateSubscription: the mirrored row's `currentPeriodEnd` is the value the code passes to `Subscription.create`. The schema does not declare the field, so Mongoose's strict mode does not store it.
- StripeService.UpgradeSubscription: the new `currentPeriodEnd` is the value the code passes to `findByIdAndUpdate`. Strict mode drops it from the update, so the stored row keeps no period end.
- StripeController.HandleWebhook: the `currentPeriodEnd` that `Apply` sets on a paid invoice or an update is assigned to the document before `save()`. Strict mode does not persist it, so the targeted row's period end is stated as the code writes it, not as stored.
- CouponController.ValidateCoupon: a request without a `code` throws in the source and answers 500. The model always takes a code string.
- CouponController.CreateCoupon: a request without a `code` throws a `TypeError` at `code.toUpperCase()`. That answers 500 before any processor call. The model always takes a code string.

## Findings

| source | as written | input that shows it | evidently intended | confidence | as-written member | corrected member |
|---|---|---|---|---|---|---|
| auth-stripe-service/src/services/planService.js:69-87 | a new external price is minted only when the requested price is truthy, but `Object.assign` copies the price regardless | update a monthly plan priced 10 with `price: 0` | a changed price, 0 included, mints a new external price and retires the old one | high (not executed) | PlanService.AsWrittenZeroPriceKeepsOldExternalPrice | PlanService.UpdatePlan |
| auth-stripe-service/src/services/planService.js:76-80 | the new price's interval is computed from the request's `type` only | reprice a monthly plan with `{ price: 20 }` and no `type` | the interval follows the plan's resulting type (the requested type, else the stored one) | high (not executed) | PlanService.AsWrittenRepriceWithoutTypeMintsYearly | PlanService.UpdatePlan |

=== FILE: common.dfy ===
/** Small vocabulary shared by every module: optional values, results,
    the external processor's replies, JavaScript truthiness, time units
    and the ASCII upper-casing the coupon code uses. */
module Common {

  datatype Option<+T> = None | Some(value: T) {
    /** The value, or `default` when absent. */
    function GetOr(default: T): T {
      match this
      case Some(v) => v
      case None => default
    }
  }

  /** A success value or the error that stopped the operation. */
  datatype Result<+T, +E> = Ok(value: T) | Err(error: E)

  /** What the external payment processor answered to a request that
      returns a record: the record, or its rejection message. */
  datatype Reply<+T> = Accepted(value: T) | Rejected(message: string)

  /** What the processor answered to a request whose reply is not used. */
  datatype Ack = Ack | Nack(message: string)

  /** JavaScript truthiness of an optional string: absent, null and the
      empty string are falsy. */
  predicate Truthy(s: Option<string>) {
    s.Some? && s.value != ""
  }

  /** JavaScript truthiness of an optional number: absent, null and 0 are
      falsy. */
  predicate TruthyNumber(n: Option<int>) {
    n.Some? && n.value != 0
  }

  /** Dates are integer milliseconds since the epoch. */
  const MillisPerSecond: int := 1000
  const MillisPerDay: int := 86_400_000

  /** `new Date(seconds * 1000)`: the processor stamps times in seconds. */
  function SecondsToMillis(seconds: int): (ms: int)
    ensures ms / MillisPerSecond == seconds && ms % MillisPerSecond == 0
  {
    seconds * MillisPerSecond
  }

  /** `Math.ceil(ms / MillisPerDay)`: whole days, rounded towards +infinity. */
  function CeilDays(ms: int): (days: int)
    ensures (days - 1) * MillisPerDay < ms <= days * MillisPerDay
  {
    -((-ms) / MillisPerDay)
  }

  /** `String.prototype.toUpperCase` on the ASCII letters. */
  function UpperChar(c: char): char {
    if 'a' <= c <= 'z' then (c as int - 32) as char else c
  }

  predicate IsLowerChar(c: char) {
    'a' <= c <= 'z'
  }

  predicate IsUpper(s: string) {
    forall i :: 0 <= i < |s| ==> !IsLowerChar(s[i])
  }

  function Upper(s: string): (r: string)
    ensures |r| == |s|
    ensures forall i :: 0 <= i < |s| ==> r[i] == UpperChar(s[i])
    ensures IsUpper(r)
  {
    if s == [] then [] else [UpperChar(s[0])] + Upper(s[1..])
  }

  /** Upper-casing is idempotent: a stored code upper-cases to itself. */
  lemma UpperIdempotent(s: string)
    ensures Upper(Upper(s)) == Upper(s)
  {
  }

  /** An upper-case string is its own upper-casing. */
  lemma UpperFixesUpper(s: string)
    requires IsUpper(s)
    ensures Upper(s) == s
  {
  }
}

=== FILE: coupon_controller.dfy ===
/** The coupon ledger's request handlers
    (auth-stripe-service/src/controllers/couponController.js): create,
    validate, update and deactivate. Each coupon is mirrored at the
    processor as a one-off discount whose id is the coupon's code. */
module CouponController {
  import opened Common
  import opened Tables
  import Plans
  import opened Coupons

  /** The discount the processor is asked to create: exactly one of a
      percentage or an amount in cents (the latter always in "usd"). */
  datatype StripeCouponData = StripeCouponData(
    id: string,
    duration: string,
    percentOff: Option<int>,
    amountOff: Option<int>,
    currency: Option<string>)

  datatype CouponError = CouponNotFound | ProcessorFailed(message: string) | ValidationFailed

  /** The processor coupon for a code, a discount kind as the request
      spells it, and a value: a percentage is sent as is, any other kind
      as cents. */
  function CouponData(id: string, typeName: string, value: int): (d: StripeCouponData)
    ensures d.id == id && d.duration == "once"
    ensures d.percentOff.Some? != d.amountOff.Some?
    ensures d.currency.Some? <==> d.amountOff.Some?
    ensures typeName == "percentage" ==> d.percentOff == Some(value) && d.amountOff.None? && d.currency.None?
    ensures typeName != "percentage" ==> d.amountOff == Some(value * 100) && d.currency == Some("usd") && d.percentOff.None?
  {
    if typeName == "percentage" then
      StripeCouponData(id, "once", Some(value), None, None)
    else
      StripeCouponData(id, "once", None, Some(value * 100), Some("usd"))
  }

  /** The discount value a processor coupon stands for, in the units the
      local coupon keeps (percent, or whole currency units). */
  function DiscountValue(d: StripeCouponData): int {
    match d.percentOff
    case Some(p) => p
    case None => d.amountOff.GetOr(0) / 100
  }

  /** The processor coupon carries the local value back: a percentage
      unchanged, an amount as cents that divide back exactly. */
  lemma CouponDataRoundTrip(id: string, typeName: string, value: int)
    ensures DiscountValue(CouponData(id, typeName, value)) == value
    ensures (typeName == "percentage") == CouponData(id, typeName, value).percentOff.Some?
  {
  }

  datatype CouponCreated = CouponCreated(ledger: Ledger, id: Id, request: StripeCouponData)

  /** `createCoupon`: the processor coupon is created first, under the
      upper-cased code; then the local coupon is saved with the schema's
      defaults. A save the schema refuses (unknown kind, a percentage over
      100, a duplicate code) happens after the processor call. */
  function CreateCoupon(l: Ledger, code: string, typeName: string, value: int,
                        validUntil: Option<int>, maxUses: Option<int>, applicablePlans: seq<Id>,
                        now: int, stripeCoupon: Reply<string>)
    : (r: Result<CouponCreated, CouponError>)
    requires l.Valid()
    ensures stripeCoupon.Rejected? ==> r == Err(ProcessorFailed(stripeCoupon.message))
    ensures r.Ok? ==>
      && stripeCoupon.Accepted? && r.value.ledger.Valid()
      && r.value.id !in l.rows && r.value.id in r.value.ledger.rows
    ensures r.Ok? ==>
      var c := r.value.ledger.rows[r.value.id];
      && r.value.ledger.rows == l.rows[r.value.id := c]
      && c.code == Upper(code) && IsUpper(c.code)
      && r.value.request == CouponData(c.code, typeName, value)
      && CouponTypeName(c.couponType) == typeName && c.value == value
      && c.stripeCouponId == Some(stripeCoupon.value)
      && c.currentUses == 0 && c.isActive && c.validFrom == now
      && c.validUntil == (if TruthyNumber(validUntil) then validUntil else None)
      && c.maxUses == maxUses && c.applicablePlans == applicablePlans
      && CouponFieldsValid(c)
    ensures r.Ok? && LedgerValid(l) ==> LedgerValid(r.value.ledger)
    ensures stripeCoupon.Accepted? && (typeName == "percentage" || typeName == "amount")
            && 0 <= value && (typeName == "percentage" ==> value <= 100) && code != ""
            && (forall j :: j in l.rows ==>
                  l.rows[j].code != Upper(code) && l.rows[j].stripeCouponId != Some(stripeCoupon.value))
            ==> r.Ok?
  {
    var request := CouponData(Upper(code), typeName, value);
    match stripeCoupon
    case Rejected(m) => Err(ProcessorFailed(m))
    case Accepted(stripeId) =>
      match ParseCouponType(typeName)
      case None => Err(ValidationFailed)
      case Some(t) =>
        var c := NewCoupon(code, t, value, now,
                           if TruthyNumber(validUntil) then validUntil else None,
                           maxUses, Some(stripeId), applicablePlans);
        if CanSave(l, l.next, c) then
          var (l', id) := Insert(l, c);
          Ok(CouponCreated(l', id, request))
        else Err(ValidationFailed)
  }

  /** `populate('applicablePlans')`: references to plans that do not exist
      drop out of the list. */
  function Populated(ids: seq<Id>, plans: Plans.Catalogue): (r: seq<Id>)
    ensures forall k :: k in r <==> k in ids && k in plans.rows
  {
    if ids == [] then []
    else if ids[0] in plans.rows then [ids[0]] + Populated(ids[1..], plans)
    else Populated(ids[1..], plans)
  }

  /** `getCoupon`: the stored coupon with its applicable plans populated,
      so references to plans that no longer exist are not returned. */
  function GetCoupon(l: Ledger, plans: Plans.Catalogue, id: Id): (r: Result<Coupon, CouponError>)
    ensures r == Err(CouponNotFound) <==> id !in l.rows
    ensures r.Ok? ==> id in l.rows && r.value == l.rows[id].(applicablePlans := r.value.applicablePlans)
    ensures r.Ok? ==> forall k :: k in r.value.applicablePlans <==> k in l.rows[id].applicablePlans && k in plans.rows
  {
    if id in l.rows then Ok(l.rows[id].(applicablePlans := Populated(l.rows[id].applicablePlans, plans)))
    else Err(CouponNotFound)
  }

  /** The outcome of `validateCoupon`: an unknown code answers 404, an
      unusable or inapplicable coupon 400. */
  datatype Validation =
    | Valid(id: Id, code: string, couponType: CouponType, value: int, validUntil: Option<int>)
    | NotFound
    | Unusable
    | NotApplicable

  /** The active coupon the code names, if any. */
  function ActiveWithCode(l: Ledger, code: string): (r: Option<Id>)
    requires l.Valid()
    ensures r.Some? ==> r.value in l.rows && l.rows[r.value].code == Upper(code) && l.rows[r.value].isActive
    ensures r.None? <==> forall k :: k in l.rows ==> !(l.rows[k].code == Upper(code) && l.rows[k].isActive)
  {
    FirstWhere(l, (c: Coupon) => c.code == Upper(code) && c.isActive)
  }

  /** `validateCoupon`: look the code up among active coupons, then ask
      `isValid()`, then check the plan, stopping at the first failure. The
      plan check applies only when a plan is named and the coupon lists
      plans that still exist. */
  function ValidateCoupon(l: Ledger, plans: Plans.Catalogue, code: string, planId: Option<Id>, now: int)
    : (r: Validation)
    requires l.Valid()
    ensures r == NotFound <==> forall k :: k in l.rows ==> !(l.rows[k].code == Upper(code) && l.rows[k].isActive)
    ensures r.Valid? ==>
      && r.id in l.rows && l.rows[r.id].code == Upper(code) && r.code == Upper(code)
      && l.rows[r.id].isActive && r.couponType == l.rows[r.id].couponType
      && r.value == l.rows[r.id].value && r.validUntil == l.rows[r.id].validUntil
      && IsValid(l.rows[r.id], now)
      && (planId.Some? && (exists q :: q in l.rows[r.id].applicablePlans && q in plans.rows) ==>
            planId.value in l.rows[r.id].applicablePlans && planId.value in plans.rows)
    ensures r == Unusable ==>
      exists k :: k in l.rows && l.rows[k].code == Upper(code) && l.rows[k].isActive && !IsValid(l.rows[k], now)
    ensures r == NotApplicable ==>
      && planId.Some?
      && exists k :: k in l.rows && l.rows[k].code == Upper(code) && IsValid(l.rows[k], now)
                     && planId.value !in Populated(l.rows[k].applicablePlans, plans)
                     && exists q :: q in l.rows[k].applicablePlans && q in plans.rows
  {
    match ActiveWithCode(l, code)
    case None => NotFound
    case Some(k) =>
      var c := l.rows[k];
      if !IsValid(c, now) then Unusable
      else
        var listed := Populated(c.applicablePlans, plans);
        if planId.Some? && |listed| > 0 && planId.value !in listed then
          assert listed[0] in listed;
          NotApplicable
        else Valid(k, c.code, c.couponType, c.value, c.validUntil)
  }

  /** The fields of an update request that the ledger honours; `code`,
      `type`, `stripeCouponId` and `currentUses` are stripped from every
      request, so they have no place here. `maxUses` distinguishes an
      absent field (None) from an explicit null (Some(None)). */
  datatype CouponPatch = CouponPatch(
    value: Option<int>,
    validUntil: Option<int>,
    maxUses: Option<Option<int>>,
    applicablePlans: Option<seq<Id>>,
    isActive: Option<bool>)

  datatype CouponUpdated = CouponUpdated(ledger: Ledger, reissued: Option<StripeCouponData>)

  /** `updateCoupon`: a truthy value that differs from the stored one
      deletes the processor coupon and creates a new one under the same
      code; the other fields change only under their own guards. */
  function UpdateCoupon(l: Ledger, id: Id, patch: CouponPatch, del: Ack, create: Reply<string>)
    : (r: Result<CouponUpdated, CouponError>)
    ensures r == Err(CouponNotFound) <==> id !in l.rows
    ensures r.Ok? ==> id in l.rows && r.value.ledger.rows.Keys == l.rows.Keys && r.value.ledger.next == l.next
    ensures r.Ok? ==> forall k :: k in l.rows && k != id ==> r.value.ledger.rows[k] == l.rows[k]
    ensures r.Ok? ==>
      var before := l.rows[id];
      var after := r.value.ledger.rows[id];
      && after.code == before.code && after.couponType == before.couponType
      && after.currentUses == before.currentUses && after.validFrom == before.validFrom
      && (r.value.reissued.Some? <==> TruthyNumber(patch.value) && patch.value.value != before.value)
      && (r.value.reissued.None? ==> after.stripeCouponId == before.stripeCouponId)
      && (r.value.reissued.Some? ==>
            && del.Ack? && create.Accepted?
            && after.stripeCouponId == Some(create.value)
            && r.value.reissued.value == CouponData(before.code, CouponTypeName(before.couponType), after.value))
      && after.value == (if TruthyNumber(patch.value) then patch.value.value else before.value)
      && after.validUntil == (if TruthyNumber(patch.validUntil) then patch.validUntil else before.validUntil)
      && after.maxUses == patch.maxUses.GetOr(before.maxUses)
      && after.applicablePlans == patch.applicablePlans.GetOr(before.applicablePlans)
      && after.isActive == patch.isActive.GetOr(before.isActive)
    ensures r.Ok? <==>
      && id in l.rows
      && var before := l.rows[id];
      && var reissue := TruthyNumber(patch.value) && patch.value.value != before.value;
      && (reissue ==> del.Ack? && create.Accepted?)
      && CanSave(l, id, before.(
           stripeCouponId := if reissue then Some(create.value) else before.stripeCouponId,
           validUntil := if TruthyNumber(patch.validUntil) then patch.validUntil else before.validUntil,
           maxUses := patch.maxUses.GetOr(before.maxUses),
           value := if TruthyNumber(patch.value) then patch.value.value else before.value,
           applicablePlans := patch.applicablePlans.GetOr(before.applicablePlans),
           isActive := patch.isActive.GetOr(before.isActive)))
    ensures r.Ok? && LedgerValid(l) ==> LedgerValid(r.value.ledger)
  {
    if id !in l.rows then Err(CouponNotFound)
    else
      var c := l.rows[id];
      var reissue := TruthyNumber(patch.value) && patch.value.value != c.value;
      if reissue && del.Nack? then Err(ProcessorFailed(del.message))
      else if reissue && create.Rejected? then Err(ProcessorFailed(create.message))
      else
        var c' := c.(stripeCouponId := if reissue then Some(create.value) else c.stripeCouponId,
                     validUntil := if TruthyNumber(patch.validUntil) then patch.validUntil else c.validUntil,
                     maxUses := patch.maxUses.GetOr(c.maxUses),
                     value := if TruthyNumber(patch.value) then patch.value.value else c.value,
                     applicablePlans := patch.applicablePlans.GetOr(c.applicablePlans),
                     isActive := patch.isActive.GetOr(c.isActive));
        var reissued := if reissue then Some(CouponData(c.code, CouponTypeName(c.couponType), c'.value)) else None;
        if CanSave(l, id, c') then Ok(CouponUpdated(Put(l, id, c'), reissued))
        else Err(ValidationFailed)
  }

  /** `deactivateCoupon`: delete the processor coupon, then clear the
      active flag; nothing else changes. */
  function DeactivateCoupon(l: Ledger, id: Id, del: Ack): (r: Result<Ledger, CouponError>)
    ensures r == Err(CouponNotFound) <==> id !in l.rows
    ensures r.Ok? ==> del.Ack? && id in l.rows
    ensures r.Ok? ==> r.value == Table(l.rows[id := l.rows[id].(isActive := false)], l.next)
    ensures LedgerValid(l) ==> (r.Ok? <==> id in l.rows && del.Ack?)
    ensures r.Ok? && LedgerValid(l) ==> LedgerValid(r.value)
  {
    if id !in l.rows then Err(CouponNotFound)
    else if del.Nack? then Err(ProcessorFailed(del.message))
    else
      var c' := l.rows[id].(isActive := false);
      if CanSave(l, id, c') then Ok(Put(l, id, c'))
      else Err(ValidationFailed)
  }

  /** Once a coupon is deactivated its code is unknown to validation, so it
      can never again be reported valid. */
  lemma DeactivatedCodeIsNotFound(l: Ledger, plans: Plans.Catalogue, id: Id, del: Ack, planId: Option<Id>, now: int)
    requires LedgerValid(l) && DeactivateCoupon(l, id, del).Ok?
    ensures ValidateCoupon(DeactivateCoupon(l, id, del).value, plans, l.rows[id].code, planId, now) == NotFound
  {
  }

  /** Validation never reports a coupon valid while `isValid()` says no:
      not when it is used up, and not after `validUntil`. */
  lemma ValidateRespectsIsValid(l: Ledger, plans: Plans.Catalogue, code: string, planId: Option<Id>, now: int)
    requires l.Valid() && ValidateCoupon(l, plans, code, planId, now).Valid?
    ensures var c := l.rows[ValidateCoupon(l, plans, code, planId, now).id];
            && c.isActive
            && (c.maxUses.Some? ==> c.currentUses < c.maxUses.value)
            && (c.validUntil.Some? ==> now <= c.validUntil.value)
  {
  }
}

=== FILE: coupons.dfy ===
/** The coupon document (auth-stripe-service/src/models/Coupon.js): its
    field constraints, defaults, unique indexes and the `isValid` check. */
module Coupons {
  import opened Common
  import opened Tables

  datatype CouponType = Percentage | Amount

  function CouponTypeName(t: CouponType): string {
    match t
    case Percentage => "percentage"
    case Amount => "amount"
  }

  /** Reads a discount kind off a request; anything outside the enum is None. */
  function ParseCouponType(s: string): (r: Option<CouponType>)
    ensures r.Some? <==> s == "percentage" || s == "amount"
    ensures r.Some? ==> CouponTypeName(r.value) == s
  {
    if s == "percentage" then Some(Percentage)
    else if s == "amount" then Some(Amount)
    else None
  }

  /** A coupon document. Dates are milliseconds; `applicablePlans` holds
      plan ids, the empty list meaning every plan. */
  datatype Coupon = Coupon(
    code: string,
    couponType: CouponType,
    value: int,
    validFrom: int,
    validUntil: Option<int>,
    maxUses: Option<int>,
    currentUses: int,
    stripeCouponId: Option<string>,
    isActive: bool,
    applicablePlans: seq<Id>)

  type Ledger = Table<Coupon>

  /** A new coupon document with the schema's defaults: valid from now,
      no uses so far, active. */
  function NewCoupon(code: string, t: CouponType, value: int, now: int, validUntil: Option<int>,
                     maxUses: Option<int>, stripeCouponId: Option<string>, applicablePlans: seq<Id>): Coupon {
    Coupon(Upper(code), t, value, now, validUntil, maxUses, 0, stripeCouponId, true, applicablePlans)
  }

  /** `isValid()` as the model method writes it: inactive, then expired,
      then used up. `validFrom` is never looked at. */
  predicate IsValid(c: Coupon, now: int) {
    if !c.isActive then false
    else if c.validUntil.Some? && now > c.validUntil.value then false
    else if c.maxUses.Some? && c.currentUses >= c.maxUses.value then false
    else true
  }

  /** `isValid()` is exactly: active, not past `validUntil` (the instant
      itself still counts), and under `maxUses` when there is one. */
  lemma IsValidIff(c: Coupon, now: int)
    ensures IsValid(c, now) <==>
      && c.isActive
      && (c.validUntil.None? || now <= c.validUntil.value)
      && (c.maxUses.None? || c.currentUses < c.maxUses.value)
  {
  }

  /** The start of the validity window plays no part in `isValid()`. */
  lemma IsValidIgnoresValidFrom(c: Coupon, now: int, from: int)
    ensures IsValid(c.(validFrom := from), now) == IsValid(c, now)
  {
  }

  /** A coupon that is valid at some instant was valid at every earlier
      instant: validity only runs out. */
  lemma IsValidMonotone(c: Coupon, earlier: int, later: int)
    requires earlier <= later && IsValid(c, later)
    ensures IsValid(c, earlier)
  {
  }

  /** The schema's per-document checks: a non-empty upper-case code,
      `value` at least 0 and, for a percentage, at most 100. */
  predicate CouponFieldsValid(c: Coupon) {
    && c.code != "" && IsUpper(c.code)
    && c.value >= 0
    && (c.couponType == Percentage ==> c.value <= 100)
  }

  /** `code` and `stripeCouponId` carry unique indexes. The second is not
      sparse, so at most one coupon may lack an external id. */
  predicate UniqueKeysFree(l: Ledger, k: Id, c: Coupon) {
    forall j :: j in l.rows && j != k ==>
      l.rows[j].code != c.code && l.rows[j].stripeCouponId != c.stripeCouponId
  }

  predicate CanSave(l: Ledger, k: Id, c: Coupon) {
    CouponFieldsValid(c) && UniqueKeysFree(l, k, c)
  }

  predicate LedgerValid(l: Ledger) {
    l.Valid() && forall k :: k in l.rows ==> CanSave(l, k, l.rows[k])
  }

  /** Saving a coupon that passes the checks keeps the ledger valid. */
  lemma SaveKeepsLedgerValid(l: Ledger, k: Id, c: Coupon)
    requires LedgerValid(l) && (k in l.rows || k == l.next) && CanSave(l, k, c)
    ensures LedgerValid(Table(l.rows[k := c], if k == l.next then l.next + 1 else l.next))
  {
  }

  /** In a valid ledger a code names at most one coupon. */
  lemma CodeIdentifiesCoupon(l: Ledger, a: Id, b: Id)
    requires LedgerValid(l) && a in l.rows && b in l.rows && l.rows[a].code == l.rows[b].code
    ensures a == b
  {
  }
}

=== FILE: plan_service.dfy ===
/** The plan catalogue (auth-stripe-service/src/services/planService.js):
    each plan is mirrored at the processor as a product with a price.
    Processor calls are oracle inputs; the price a call would create is
    returned so that contracts can speak about it. */
module PlanService {
  import opened Common
  import opened Tables
  import opened Plans

  datatype Interval = Month | Year

  /** The price the processor is asked to create: `unit_amount` is in
      cents, the currency is always "usd". */
  datatype PriceData = PriceData(product: Option<string>, unitAmount: int, currency: string, recurring: Option<Interval>)

  datatype PlanError = PlanNotFound | ProcessorFailed(message: string) | ValidationFailed

  /** The recurring interval of a price for a plan type that may be absent
      from the request: none for lifetime and free, a month for monthly,
      and a year for everything else, an absent type included. */
  function RecurringInterval(t: Option<PlanType>): (r: Option<Interval>)
    ensures r.None? <==> t == Some(Free) || t == Some(Lifetime)
    ensures r == Some(Month) <==> t == Some(Monthly)
    ensures r == Some(Year) <==> t == Some(Yearly) || t == None
  {
    match t
    case Some(Lifetime) => None
    case Some(Free) => None
    case Some(Monthly) => Some(Month)
    case _ => Some(Year)
  }

  function PriceRequest(product: Option<string>, price: int, t: Option<PlanType>): PriceData {
    PriceData(product, price * 100, "usd", RecurringInterval(t))
  }

  /** The cents sent to the processor convert back to the plan's price. */
  lemma PriceRequestRoundTrip(product: Option<string>, price: int, t: Option<PlanType>)
    ensures PriceRequest(product, price, t).unitAmount / 100 == price
    ensures PriceRequest(product, price, t).unitAmount % 100 == 0
  {
  }

  datatype Created = Created(catalogue: Catalogue, id: Id, price: PriceData)

  /** `createPlan`: create the product, then its price, then save the plan
      as active with both external ids. A failed processor call writes
      nothing; a plan the store refuses is only refused after both
      processor objects exist. */
  function CreatePlan(c: Catalogue, name: string, description: string, t: PlanType, price: int,
                      features: seq<string>, product: Reply<string>, stripePrice: Reply<string>)
    : (r: Result<Created, PlanError>)
    requires c.Valid()
    ensures product.Rejected? ==> r == Err(ProcessorFailed(product.message))
    ensures product.Accepted? && stripePrice.Rejected? ==> r == Err(ProcessorFailed(stripePrice.message))
    ensures r == Err(ValidationFailed) ==> product.Accepted? && stripePrice.Accepted?
    ensures r.Ok? ==> product.Accepted? && stripePrice.Accepted?
    ensures r.Ok? ==>
      && r.value.id !in c.rows && r.value.catalogue.Valid()
      && r.value.catalogue.rows == c.rows[r.value.id :=
           Plan(name, description, t, price, features, Some(stripePrice.value), Some(product.value), true)]
    ensures r.Ok? ==>
      && r.value.price.product == Some(product.value)
      && r.value.price.unitAmount == price * 100 && r.value.price.currency == "usd"
      && r.value.price.recurring == RecurringInterval(Some(t))
    ensures r.Ok? && CatalogueValid(c) ==> CatalogueValid(r.value.catalogue)
    ensures product.Accepted? && stripePrice.Accepted? && price >= 0 && name != "" && description != ""
            && (forall j :: j in c.rows ==> !(c.rows[j].name == name && c.rows[j].isActive))
            && (forall j :: j in c.rows ==>
                  c.rows[j].stripePriceId != Some(stripePrice.value) && c.rows[j].stripeProductId != Some(product.value))
            ==> r.Ok?
  {
    match product
    case Rejected(m) => Err(ProcessorFailed(m))
    case Accepted(productId) =>
      var request := PriceRequest(Some(productId), price, Some(t));
      match stripePrice
      case Rejected(m) => Err(ProcessorFailed(m))
      case Accepted(priceId) =>
        var p := Plan(name, description, t, price, features, Some(priceId), Some(productId), true);
        if CanSave(c, c.next, p) then
          var (c', id) := Insert(c, p);
          Ok(Created(c', id, request))
        else Err(ValidationFailed)
  }

  predicate AllIn(rows: map<Id, Plan>, s: seq<Id>) {
    forall i :: 0 <= i < |s| ==> s[i] in rows
  }

  predicate SortedByPrice(rows: map<Id, Plan>, s: seq<Id>)
    requires AllIn(rows, s)
  {
    forall i, j :: 0 <= i < j < |s| ==> rows[s[i]].price <= rows[s[j]].price
  }

  predicate Distinct(s: seq<Id>) {
    forall i, j :: 0 <= i < j < |s| ==> s[i] != s[j]
  }

  /** Inserts `x` into a price-ordered sequence, before the first plan that
      costs at least as much. */
  function InsertByPrice(rows: map<Id, Plan>, x: Id, s: seq<Id>): (r: seq<Id>)
    requires x in rows && AllIn(rows, s) && SortedByPrice(rows, s)
    ensures AllIn(rows, r) && SortedByPrice(rows, r)
    ensures |r| == |s| + 1 && (r[0] == x || (|s| > 0 && r[0] == s[0]))
    ensures forall y :: y in r <==> y == x || y in s
    ensures Distinct(s) && x !in s ==> Distinct(r)
  {
    if s == [] || rows[x].price <= rows[s[0]].price then
      [x] + s
    else
      var rest := InsertByPrice(rows, x, s[1..]);
      assert rows[s[0]].price <= rows[rest[0]].price;
      assert Distinct(s) && x !in s ==> s[0] !in s[1..] && s[0] !in rest;
      [s[0]] + rest
  }

  /** Stable insertion sort by ascending price. */
  function SortByPrice(rows: map<Id, Plan>, s: seq<Id>): (r: seq<Id>)
    requires AllIn(rows, s)
    ensures AllIn(rows, r) && SortedByPrice(rows, r)
    ensures |r| == |s|
    ensures forall y :: y in r <==> y in s
    ensures Distinct(s) ==> Distinct(r)
  {
    if s == [] then []
    else
      InsertByPrice(rows, s[0], SortByPrice(rows, s[1..]))
  }

  /** `getPlans`: every active plan exactly once, cheapest first. */
  function GetPlans(c: Catalogue): (r: seq<Id>)
    requires c.Valid()
    ensures forall k :: k in r <==> k in c.rows && c.rows[k].isActive
    ensures AllIn(c.rows, r) && SortedByPrice(c.rows, r)
    ensures Distinct(r)
  {
    SortByPrice(c.rows, Where(c, (p: Plan) => p.isActive))
  }

  /** `getPlan`: a plan is visible by id only while it is active. */
  function GetPlan(c: Catalogue, id: Id): (r: Option<Plan>)
    ensures r.Some? <==> id in c.rows && c.rows[id].isActive
    ensures r.Some? ==> r.value == c.rows[id]
  {
    if id in c.rows && c.rows[id].isActive then Some(c.rows[id]) else None
  }

  /** `getFreePlan`: the first active plan of type free, if any. */
  function GetFreePlan(c: Catalogue): (r: Option<Id>)
    requires c.Valid()
    ensures r.Some? ==> r.value in c.rows && c.rows[r.value].isActive && c.rows[r.value].planType == Free
    ensures r.None? <==> forall k :: k in c.rows ==> !(c.rows[k].isActive && c.rows[k].planType == Free)
  {
    FirstWhere(c, (p: Plan) => p.isActive && p.planType == Free)
  }

  /** The fields of an update request that the catalogue honours. */
  datatype PlanPatch = PlanPatch(
    name: Option<string>,
    description: Option<string>,
    planType: Option<PlanType>,
    price: Option<int>,
    features: Option<seq<string>>,
    isActive: Option<bool>)

  /** `Object.assign(plan, updateData)`: each field the request carries
      overwrites the stored one. */
  function Assign(p: Plan, patch: PlanPatch): Plan {
    p.(name := patch.name.GetOr(p.name),
       description := patch.description.GetOr(p.description),
       planType := patch.planType.GetOr(p.planType),
       price := patch.price.GetOr(p.price),
       features := patch.features.GetOr(p.features),
       isActive := patch.isActive.GetOr(p.isActive))
  }

  /** The updated catalogue and the price minted on the way, if any. */
  datatype Updated = Updated(catalogue: Catalogue, minted: Option<PriceData>)

  function SaveUpdate(c: Catalogue, id: Id, p: Plan, minted: Option<PriceData>): (r: Result<Updated, PlanError>)
    requires id in c.rows
    ensures r.Ok? <==> CanSave(c, id, p)
    ensures r.Ok? ==> r.value == Updated(Put(c, id, p), minted)
    ensures r.Ok? && CatalogueValid(c) ==> CatalogueValid(r.value.catalogue)
  {
    if CanSave(c, id, p) then Ok(Updated(Put(c, id, p), minted))
    else Err(ValidationFailed)
  }

  /** `updatePlan` as the source writes it: a new price is minted only when
      the requested price is truthy, so a price of 0 is assigned to the
      plan with no new price, and the new price's interval comes from the
      request's type alone, so an update without a type mints a yearly
      price. */
  function UpdatePlanAsWritten(c: Catalogue, id: Id, patch: PlanPatch,
                               product: Ack, newPrice: Reply<string>, retire: Ack)
    : (r: Result<Updated, PlanError>)
    ensures r == Err(PlanNotFound) <==> !(id in c.rows && c.rows[id].isActive)
    ensures r.Ok? ==> id in c.rows && r.value.catalogue.rows.Keys == c.rows.Keys
    ensures r.Ok? ==> forall k :: k in c.rows && k != id ==> r.value.catalogue.rows[k] == c.rows[k]
    ensures r.Ok? && r.value.minted.Some? ==>
      newPrice.Accepted? && r.value.catalogue.rows[id].stripePriceId == Some(newPrice.value)
    ensures r.Ok? && r.value.minted.None? ==> r.value.catalogue.rows[id].stripePriceId == c.rows[id].stripePriceId
    ensures r.Ok? ==>
      && (r.value.minted.Some? <==> TruthyNumber(patch.price) && patch.price.value != c.rows[id].price)
      && r.value.catalogue.rows[id] == Assign(c.rows[id].(stripePriceId := r.value.catalogue.rows[id].stripePriceId), patch)
    ensures r.Ok? && r.value.minted.Some? ==>
      && retire.Ack?
      && r.value.minted.value == PriceData(c.rows[id].stripeProductId, patch.price.value * 100, "usd",
                                           RecurringInterval(patch.planType))
    ensures r.Ok? <==>
      && id in c.rows && c.rows[id].isActive && product.Ack?
      && var mint := TruthyNumber(patch.price) && patch.price.value != c.rows[id].price;
      && (mint ==> newPrice.Accepted? && retire.Ack?)
      && CanSave(c, id, Assign(if mint then c.rows[id].(stripePriceId := Some(newPrice.value)) else c.rows[id], patch))
    ensures r.Ok? && CatalogueValid(c) ==> CatalogueValid(r.value.catalogue)
  {
    if !(id in c.rows && c.rows[id].isActive) then Err(PlanNotFound)
    else if product.Nack? then Err(ProcessorFailed(product.message))
    else
      var p := c.rows[id];
      if TruthyNumber(patch.price) && patch.price.value != p.price then
        var request := PriceRequest(p.stripeProductId, patch.price.value, patch.planType);
        match newPrice
        case Rejected(m) => Err(ProcessorFailed(m))
        case Accepted(priceId) =>
          if retire.Nack? then Err(ProcessorFailed(retire.message))
          else SaveUpdate(c, id, Assign(p.(stripePriceId := Some(priceId)), patch), Some(request))
      else SaveUpdate(c, id, Assign(p, patch), None)
  }

  /** `updatePlan` as intended: any requested price that differs from the
      stored one (0 included) mints a new price for the plan's resulting
      type and retires the old one, so a stored price never changes
      without a new external price. */
  function UpdatePlan(c: Catalogue, id: Id, patch: PlanPatch,
                      product: Ack, newPrice: Reply<string>, retire: Ack)
    : (r: Result<Updated, PlanError>)
    ensures r == Err(PlanNotFound) <==> !(id in c.rows && c.rows[id].isActive)
    ensures id in c.rows && c.rows[id].isActive && product.Nack? ==> r == Err(ProcessorFailed(product.message))
    ensures r.Ok? ==> id in c.rows && r.value.catalogue.rows.Keys == c.rows.Keys
    ensures r.Ok? ==> forall k :: k in c.rows && k != id ==> r.value.catalogue.rows[k] == c.rows[k]
    ensures r.Ok? ==>
      var before := c.rows[id];
      var after := r.value.catalogue.rows[id];
      && after.name == patch.name.GetOr(before.name)
      && after.description == patch.description.GetOr(before.description)
      && after.planType == patch.planType.GetOr(before.planType)
      && after.price == patch.price.GetOr(before.price)
      && after.features == patch.features.GetOr(before.features)
      && after.isActive == patch.isActive.GetOr(before.isActive)
      && after.stripeProductId == before.stripeProductId
      && (r.value.minted.Some? <==> after.price != before.price)
      && (r.value.minted.None? ==> after.stripePriceId == before.stripePriceId)
      && (r.value.minted.Some? ==>
            && retire.Ack? && newPrice.Accepted?
            && after.stripePriceId == Some(newPrice.value)
            && r.value.minted.value == PriceData(before.stripeProductId, after.price * 100, "usd",
                                                 RecurringInterval(Some(after.planType))))
    ensures r.Ok? <==>
      && id in c.rows && c.rows[id].isActive && product.Ack?
      && var mint := patch.price.Some? && patch.price.value != c.rows[id].price;
      && (mint ==> newPrice.Accepted? && retire.Ack?)
      && CanSave(c, id, Assign(if mint then c.rows[id].(stripePriceId := Some(newPrice.value)) else c.rows[id], patch))
    ensures r.Ok? && CatalogueValid(c) ==> CatalogueValid(r.value.catalogue)
  {
    if !(id in c.rows && c.rows[id].isActive) then Err(PlanNotFound)
    else if product.Nack? then Err(ProcessorFailed(product.message))
    else
      var p := c.rows[id];
      if patch.price.Some? && patch.price.value != p.price then
        var request := PriceRequest(p.stripeProductId, patch.price.value, Some(patch.planType.GetOr(p.planType)));
        match newPrice
        case Rejected(m) => Err(ProcessorFailed(m))
        case Accepted(priceId) =>
          if retire.Nack? then Err(ProcessorFailed(retire.message))
          else SaveUpdate(c, id, Assign(p.(stripePriceId := Some(priceId)), patch), Some(request))
      else SaveUpdate(c, id, Assign(p, patch), None)
  }

  /** A monthly plan used by the two counterexamples below. */
  const ProMonthly: Plan := Plan("Pro", "Pro plan", Monthly, 10, [], Some("price_pro_10"), Some("prod_pro"), true)

  /** As written, lowering a price to 0 changes the stored price while the
      plan keeps its old external price of 10. */
  lemma AsWrittenZeroPriceKeepsOldExternalPrice()
    ensures var c := Table(map[0 := ProMonthly], 1);
            var r := UpdatePlanAsWritten(c, 0, PlanPatch(None, None, None, Some(0), None, None),
                                         Ack, Accepted("price_pro_0"), Ack);
            && r.Ok? && r.value.minted.None?
            && r.value.catalogue.rows[0].price == 0
            && r.value.catalogue.rows[0].stripePriceId == Some("price_pro_10")
  {
  }

  /** As written, repricing a monthly plan without restating its type
      mints a yearly price. */
  lemma AsWrittenRepriceWithoutTypeMintsYearly()
    ensures var c := Table(map[0 := ProMonthly], 1);
            var r := UpdatePlanAsWritten(c, 0, PlanPatch(None, None, None, Some(20), None, None),
                                         Ack, Accepted("price_pro_20"), Ack);
            && r.Ok? && r.value.catalogue.rows[0].planType == Monthly
            && r.value.minted == Some(PriceData(Some("prod_pro"), 2000, "usd", Some(Year)))
  {
  }

  /** `deactivatePlan`: retire the product and its price at the processor,
      then clear the active flag. Refused when another inactive plan
      already carries the name, since `(name, isActive)` is unique. */
  function DeactivatePlan(c: Catalogue, id: Id, product: Ack, price: Ack): (r: Result<Catalogue, PlanError>)
    ensures r == Err(PlanNotFound) <==> !(id in c.rows && c.rows[id].isActive)
    ensures r.Ok? ==> product.Ack? && price.Ack?
    ensures r.Ok? ==>
      && id in c.rows && r.value.rows == c.rows[id := c.rows[id].(isActive := false)]
      && r.value.next == c.next
    ensures CatalogueValid(c) ==>
      (r.Ok? <==> id in c.rows && c.rows[id].isActive && product.Ack? && price.Ack?
                  && forall j :: j in c.rows && j != id ==> !(c.rows[j].name == c.rows[id].name && !c.rows[j].isActive))
    ensures r.Ok? && CatalogueValid(c) ==> CatalogueValid(r.value)
  {
    if !(id in c.rows && c.rows[id].isActive) then Err(PlanNotFound)
    else if product.Nack? then Err(ProcessorFailed(product.message))
    else if price.Nack? then Err(ProcessorFailed(price.message))
    else
      match SaveUpdate(c, id, c.rows[id].(isActive := false), None)
      case Ok(u) => Ok(u.catalogue)
      case Err(e) => Err(e)
  }

  /** A deactivated plan disappears from `getPlans`, `getPlan` and
      `getFreePlan`, and a second deactivation reports it missing. */
  lemma DeactivatedPlanIsHidden(c: Catalogue, id: Id, product: Ack, price: Ack)
    requires c.Valid()
    requires DeactivatePlan(c, id, product, price).Ok?
    ensures var c' := DeactivatePlan(c, id, product, price).value;
            && c'.Valid()
            && id !in GetPlans(c')
            && GetPlan(c', id).None?
            && GetFreePlan(c') != Some(id)
            && DeactivatePlan(c', id, product, price) == Err(PlanNotFound)
  {
  }
}

=== FILE: plans.dfy ===
/** The plan document (auth-stripe-service/src/models/Plan.js) and the
    constraints the store enforces when a plan is saved. */
module Plans {
  import opened Common
  import opened Tables

  /** The `type` enum of a plan, shared with a subscription's `planType`. */
  datatype PlanType = Free | Monthly | Yearly | Lifetime

  function PlanTypeName(t: PlanType): string {
    match t
    case Free => "free"
    case Monthly => "monthly"
    case Yearly => "yearly"
    case Lifetime => "lifetime"
  }

  /** Reads a plan type off a request; anything outside the enum is None. */
  function ParsePlanType(s: string): (r: Option<PlanType>)
    ensures r.Some? ==> PlanTypeName(r.value) == s
    ensures forall t :: PlanTypeName(t) == s ==> r == Some(t)
  {
    if s == "free" then Some(Free)
    else if s == "monthly" then Some(Monthly)
    else if s == "yearly" then Some(Yearly)
    else if s == "lifetime" then Some(Lifetime)
    else None
  }

  /** A plan document. Prices are whole currency units (the source keeps a
      JavaScript number; fractional prices are not modelled). */
  datatype Plan = Plan(
    name: string,
    description: string,
    planType: PlanType,
    price: int,
    features: seq<string>,
    stripePriceId: Option<string>,
    stripeProductId: Option<string>,
    isActive: bool)

  type Catalogue = Table<Plan>

  /** The schema's per-document checks: `name` and `description` are
      required (an empty string fails `required`), `price` is at least 0. */
  predicate PlanFieldsValid(p: Plan) {
    p.name != "" && p.description != "" && p.price >= 0
  }

  /** `(name, isActive)` is a unique compound key: two distinct plans with
      the same name differ in their active flag. */
  predicate NameKeyFree(c: Catalogue, k: Id, p: Plan) {
    forall j :: j in c.rows && j != k ==> !(c.rows[j].name == p.name && c.rows[j].isActive == p.isActive)
  }

  /** `stripePriceId` and `stripeProductId` are unique among the plans that
      have one (sparse unique indexes). */
  predicate ExternalIdsFree(c: Catalogue, k: Id, p: Plan) {
    forall j :: j in c.rows && j != k ==>
      (p.stripePriceId.Some? ==> c.rows[j].stripePriceId != p.stripePriceId)
      && (p.stripeProductId.Some? ==> c.rows[j].stripeProductId != p.stripeProductId)
  }

  /** Saving `p` under id `k` passes validation and the unique indexes. */
  predicate CanSave(c: Catalogue, k: Id, p: Plan) {
    PlanFieldsValid(p) && NameKeyFree(c, k, p) && ExternalIdsFree(c, k, p)
  }

  /** Every stored plan is one that could have been saved where it is. */
  predicate CatalogueValid(c: Catalogue) {
    c.Valid() && forall k :: k in c.rows ==> CanSave(c, k, c.rows[k])
  }

  /** Saving a plan that passes the checks (over an existing id, or under
      the next fresh one) keeps the whole catalogue valid. */
  lemma SaveKeepsCatalogueValid(c: Catalogue, k: Id, p: Plan)
    requires CatalogueValid(c) && (k in c.rows || k == c.next) && CanSave(c, k, p)
    ensures CatalogueValid(Table(c.rows[k := p], if k == c.next then c.next + 1 else c.next))
  {
  }

  /** In a valid catalogue a name is carried by at most one active plan and
      at most one inactive plan. */
  lemma AtMostOnePlanPerNameAndFlag(c: Catalogue, a: Id, b: Id)
    requires CatalogueValid(c) && a in c.rows && b in c.rows
    requires c.rows[a].name == c.rows[b].name && c.rows[a].isActive == c.rows[b].isActive
    ensures a == b
  {
  }
}

=== FILE: stripe_controller.dfy ===
/** The routed subscription endpoints (auth-stripe-service/src/controllers/stripeController.js):
    request validation in front of the lifecycle commands, the
    subscription details view, and the webhook dispatcher the server
    actually mounts. Every endpoint answers with an HTTP status; a
    refused request leaves the collections as they were. */
module StripeController {
  import opened Common
  import opened Tables
  import opened Plans
  import opened Subscriptions
  import opened StripeService

  /** An endpoint's answer: the state afterwards and the HTTP status. */
  datatype Handled = Handled(db: Db, status: int)

  /** `POST /customers`: create the processor customer, then record its id
      on the user (201), or answer 500 with nothing written. An unknown
      user matches no document, so nothing is recorded and the answer is
      still 201. */
  function CreateCustomerRequest(db: Db, userId: Id, customer: Reply<string>): (r: Handled)
    ensures r.status in {201, 500}
    ensures r.status == 201 <==> customer.Accepted?
    ensures r.status == 500 ==> r.db == db
    ensures r.db.subscriptions == db.subscriptions && r.db.plans == db.plans && r.db.coupons == db.coupons
    ensures r.db.users.Keys == db.users.Keys
    ensures forall u | u in db.users && u != userId :: r.db.users[u] == db.users[u]
    ensures r.status == 201 && userId in db.users ==>
      r.db.users[userId] == db.users[userId].(stripeCustomerId := Some(customer.value))
  {
    match customer
    case Rejected(_) => Handled(db, 500)
    case Accepted(id) =>
      if userId in db.users then
        Handled(db.(users := db.users[userId := db.users[userId].(stripeCustomerId := Some(id))]), 201)
      else Handled(db, 201)
  }

  /** Once a customer with a non-empty id is recorded, creating a
      subscription no longer fails for want of a customer. */
  lemma CustomerUnblocksCreate(db: Db, userId: Id, customer: Reply<string>, planId: Id, couponId: Option<Id>,
                               paymentMethodId: Option<string>, now: int, attach: Ack, remote: Reply<RemoteSubscription>)
    requires db.subscriptions.Valid() && userId in db.users
    requires customer.Accepted? && customer.value != ""
    ensures var db' := CreateCustomerRequest(db, userId, customer).db;
            && CreateSubscription(db', userId, planId, couponId, paymentMethodId, now, attach, remote) != Err(NoCustomer)
            && CreateSubscription(db', userId, planId, couponId, paymentMethodId, now, attach, remote) != Err(UserNotFound)
  {
  }

  /** `POST /subscriptions`: both `planId` and a truthy `paymentMethodId`
      are required (400); a failing service call answers 500 and writes
      nothing; success answers 201. */
  function CreateSubscriptionRequest(db: Db, userId: Id, planId: Option<Id>, couponId: Option<Id>,
                                     paymentMethodId: Option<string>, now: int,
                                     attach: Ack, remote: Reply<RemoteSubscription>)
    : (r: Handled)
    requires db.subscriptions.Valid()
    ensures r.status == 400 <==> planId.None? || !Truthy(paymentMethodId)
    ensures r.status in {201, 400, 500}
    ensures r.status != 201 ==> r.db == db
    ensures r.status == 201 <==>
      && planId.Some? && Truthy(paymentMethodId)
      && userId in db.users && Truthy(db.users[userId].stripeCustomerId) && !HasLive(db.subscriptions, userId)
      && planId.value in db.plans.rows && db.plans.rows[planId.value].isActive
      && attach.Ack? && remote.Accepted?
    ensures r.status == 201 ==>
      && planId.Some? && Truthy(paymentMethodId) && attach.Ack? && remote.Accepted?
      && userId in db.users && !HasLive(db.subscriptions, userId)
      && planId.value in db.plans.rows && db.plans.rows[planId.value].isActive
      && r.db.users == db.users && r.db.plans == db.plans && r.db.coupons == db.coupons
      && r.db.subscriptions.Valid()
      && (exists k :: k !in db.subscriptions.rows && k in r.db.subscriptions.rows
            && r.db.subscriptions.rows == db.subscriptions.rows[k := r.db.subscriptions.rows[k]]
            && r.db.subscriptions.rows[k].userId == userId
            && r.db.subscriptions.rows[k].planId == planId.value
            && r.db.subscriptions.rows[k].stripeSubscriptionId == Some(remote.value.id))
    ensures r.status == 201 && AtMostOneLive(db.subscriptions) ==> AtMostOneLive(r.db.subscriptions)
  {
    if planId.None? then Handled(db, 400)
    else if !Truthy(paymentMethodId) then Handled(db, 400)
    else
      match CreateSubscription(db, userId, planId.value, couponId, paymentMethodId, now, attach, remote)
      case Ok(c) =>
        assert c.id !in db.subscriptions.rows && c.id in c.db.subscriptions.rows;
        Handled(c.db, 201)
      case Err(_) => Handled(db, 500)
  }

  /** The plan types an upgrade may name: `free` is not one of them. */
  function UpgradeTarget(newPlanType: string): (r: Option<PlanType>)
    ensures r.Some? <==> newPlanType in ["monthly", "yearly", "lifetime"]
    ensures r.Some? ==> r.value != Free && PlanTypeName(r.value) == newPlanType
  {
    match ParsePlanType(newPlanType)
    case Some(t) => if t == Free then None else Some(t)
    case None => None
  }

  /** `POST /subscriptions/upgrade`: the body names a plan type, not a
      plan; the first active plan of that type is the target. An unknown
      type answers 400, a type with no active plan 404, a failing service
      call 500 with nothing written. */
  function UpgradeRequest(db: Db, userId: Id, newPlanType: string, couponId: Option<Id>,
                          retrieved: Reply<RetrievedSubscription>, updated: Reply<RemoteSubscription>)
    : (r: Handled)
    requires db.plans.Valid()
    ensures r.status == 400 <==> newPlanType !in ["monthly", "yearly", "lifetime"]
    ensures r.status == 404 <==>
      && newPlanType in ["monthly", "yearly", "lifetime"]
      && forall k :: k in db.plans.rows ==> !(db.plans.rows[k].isActive && PlanTypeName(db.plans.rows[k].planType) == newPlanType)
    ensures r.status in {200, 400, 404, 500}
    ensures r.status != 200 ==> r.db == db
    ensures r.status == 200 <==>
      && newPlanType in ["monthly", "yearly", "lifetime"]
      && (exists p :: p in db.plans.rows && db.plans.rows[p].isActive && PlanTypeName(db.plans.rows[p].planType) == newPlanType)
      && userId in db.users && CurrentSubscription(db, userId).Some?
      && ActivePlanOfType(db.plans, db.subscriptions.rows[CurrentSubscription(db, userId).value].planType).Some?
      && retrieved.Accepted? && updated.Accepted?
    ensures r.status == 200 ==>
      && userId in db.users && CurrentSubscription(db, userId).Some?
      && var k := CurrentSubscription(db, userId).value;
      && k in r.db.subscriptions.rows
      && PlanTypeName(r.db.subscriptions.rows[k].planType) == newPlanType
      && r.db.subscriptions.rows[k].planId == db.subscriptions.rows[k].planId
      && r.db.subscriptions.rows[k].stripeSubscriptionId == db.subscriptions.rows[k].stripeSubscriptionId
  {
    match UpgradeTarget(newPlanType)
    case None => Handled(db, 400)
    case Some(t) =>
      match ActivePlanOfType(db.plans, t)
      case None =>
        assert forall k | k in db.plans.rows && PlanTypeName(db.plans.rows[k].planType) == newPlanType ::
                 db.plans.rows[k].planType == t;
        Handled(db, 404)
      case Some(p) =>
        match UpgradeSubscription(db, userId, p, couponId, retrieved, updated)
        case Ok(u) => Handled(u.db, 200)
        case Err(_) => Handled(db, 500)
  }

  /** `POST /subscriptions/cancel`: 200 with the row marked canceled and
      cancelling at period end, or 500 with nothing written. */
  function CancelRequest(db: Db, userId: Id, remote: Reply<RemoteSubscription>): (r: Handled)
    ensures r.status in {200, 500}
    ensures r.status == 200 <==> userId in db.users && CurrentSubscription(db, userId).Some? && remote.Accepted?
    ensures r.status == 500 ==> r.db == db
    ensures r.status == 200 ==>
      var k := CurrentSubscription(db, userId).value;
      && k in r.db.subscriptions.rows
      && r.db.subscriptions.rows[k].status == Canceled && r.db.subscriptions.rows[k].cancelAtPeriodEnd
  {
    match CancelSubscription(db, userId, remote)
    case Ok(f) => Handled(f.db, 200)
    case Err(_) => Handled(db, 500)
  }

  /** `POST /subscriptions/reactivate`: 200 with the row active and no
      longer cancelling, or 500 with nothing written. */
  function ReactivateRequest(db: Db, userId: Id, remote: Reply<RemoteSubscription>): (r: Handled)
    ensures r.status in {200, 500}
    ensures r.status == 200 <==> userId in db.users && CurrentSubscription(db, userId).Some? && remote.Accepted?
    ensures r.status == 500 ==> r.db == db
    ensures r.status == 200 ==>
      var k := CurrentSubscription(db, userId).value;
      && k in r.db.subscriptions.rows
      && r.db.subscriptions.rows[k].status == Active && !r.db.subscriptions.rows[k].cancelAtPeriodEnd
  {
    match ReactivateSubscription(db, userId, remote)
    case Ok(f) => Handled(f.db, 200)
    case Err(_) => Handled(db, 500)
  }

  /** The body of `GET /subscriptions/details`. */
  datatype Details =
    | NoCurrent(planType: string)
    | Current(subscription: Subscription)

  /** `GET /subscriptions/details`: the populated current subscription, or
      `null` with plan type `free` when the user has none (or the pointer
      names a deleted row). A missing user answers 500. */
  function GetSubscriptionDetails(db: Db, userId: Id): (r: Result<Details, int>)
    ensures r == Err(500) <==> userId !in db.users
    ensures r.Ok? ==> userId in db.users
    ensures r.Ok? && r.value.NoCurrent? ==> r.value.planType == "free"
    ensures r.Ok? && r.value.NoCurrent? <==>
      userId in db.users && (db.users[userId].currentSubscription.None?
                             || db.users[userId].currentSubscription.value !in db.subscriptions.rows)
    ensures r.Ok? && r.value.Current? ==>
      r.value.subscription == db.subscriptions.rows[db.users[userId].currentSubscription.value]
  {
    if userId !in db.users then Err(500)
    else
      match CurrentSubscription(db, userId)
      case None => Ok(NoCurrent(PlanTypeName(Free)))
      case Some(k) => Ok(Current(db.subscriptions.rows[k]))
  }

  /** After a successful cancellation the details view reports the
      current row, now canceled and cancelling at period end, with its
      plan and external id as before. */
  lemma CancelShowsInDetails(db: Db, userId: Id, remote: Reply<RemoteSubscription>)
    requires CancelRequest(db, userId, remote).status == 200
    ensures var before := db.subscriptions.rows[CurrentSubscription(db, userId).value];
            var d := GetSubscriptionDetails(CancelRequest(db, userId, remote).db, userId);
            && d.Ok? && d.value.Current?
            && d.value.subscription == before.(status := Canceled, cancelAtPeriodEnd := true)
  {
  }

  /** The external subscription an event is about: the invoice's
      `subscription` when truthy, the subscription's own `id` otherwise;
      nothing for an unhandled kind. */
  function Target(e: Event): (r: Option<string>)
    ensures r.Some? ==> HandledKind(e.kind)
    ensures (e.kind == SubscriptionUpdatedKind || e.kind == SubscriptionDeletedKind) ==> r == Some(e.data.id)
    ensures (e.kind == PaymentSucceededKind || e.kind == PaymentFailedKind) ==>
      (r.Some? <==> Truthy(e.data.subscription)) && (r.Some? ==> r == e.data.subscription)
  {
    if e.kind == PaymentSucceededKind || e.kind == PaymentFailedKind then
      (if Truthy(e.data.subscription) then e.data.subscription else None)
    else if e.kind == SubscriptionUpdatedKind || e.kind == SubscriptionDeletedKind then Some(e.data.id)
    else None
  }

  /** What the routed dispatcher leaves behind: the state, the notices it
      emitted, and the HTTP status. */
  datatype WebhookOutcome = WebhookOutcome(db: Db, notices: seq<Notification>, status: int)

  /** The change one handled event makes to the row it matched. */
  function Apply(e: Event, s: Subscription): Subscription {
    if e.kind == PaymentSucceededKind then
      s.(status := Active, currentPeriodEnd := Some(SecondsToMillis(e.data.periodEnd)))
    else if e.kind == PaymentFailedKind then
      s.(status := Incomplete)
    else if e.kind == SubscriptionUpdatedKind then
      s.(status := e.data.status, cancelAtPeriodEnd := e.data.cancelAtPeriodEnd,
         currentPeriodEnd := Some(SecondsToMillis(e.data.currentPeriodEnd)))
    else
      s.(status := Canceled)
  }

  /** `StripeController.handleWebhook`, the dispatcher behind
      `POST /webhook`. A bad signature answers 400 and writes nothing.
      Otherwise the answer is 200 and at most the one row the event
      targets changes:
      - a paid invoice marks it active and stamps its period end;
      - a failed invoice marks it incomplete and notifies its user, when
        that user exists;
      - an updated subscription overwrites its status, cancellation flag
        and period end;
      - a deleted subscription marks it canceled and clears the user's
        current-subscription pointer when it points at this row. */
  function HandleWebhook(db: Db, signatureOk: bool, e: Event): (r: WebhookOutcome)
    requires db.subscriptions.Valid()
    ensures !signatureOk ==> r == WebhookOutcome(db, [], 400)
    ensures signatureOk ==> r.status == 200
    ensures r.db.plans == db.plans && r.db.coupons == db.coupons
    ensures r.db.subscriptions.Valid() && r.db.subscriptions.rows.Keys == db.subscriptions.rows.Keys
    ensures forall k | k in db.subscriptions.rows && (Target(e).None? || db.subscriptions.rows[k].stripeSubscriptionId != Target(e)) ::
              r.db.subscriptions.rows[k] == db.subscriptions.rows[k]
    ensures signatureOk && Target(e).Some? && FindByExternal(db.subscriptions, Target(e).value).Some? ==>
      var k := FindByExternal(db.subscriptions, Target(e).value).value;
      r.db.subscriptions.rows == db.subscriptions.rows[k := Apply(e, db.subscriptions.rows[k])]
    ensures (!signatureOk || Target(e).None? || FindByExternal(db.subscriptions, Target(e).value).None?) ==> r.db == db
    ensures r.db.users.Keys == db.users.Keys
    ensures forall u :: u in db.users && r.db.users[u] != db.users[u] ==>
      && signatureOk && e.kind == SubscriptionDeletedKind
      && r.db.users[u] == db.users[u].(currentSubscription := None)
      && db.users[u].currentSubscription == FindByExternal(db.subscriptions, e.data.id)
    ensures signatureOk && e.kind == SubscriptionDeletedKind && FindByExternal(db.subscriptions, e.data.id).Some? ==>
      var k := FindByExternal(db.subscriptions, e.data.id).value;
      var u := db.subscriptions.rows[k].userId;
      && (u in db.users && db.users[u].currentSubscription == Some(k) ==>
            r.db.users == db.users[u := db.users[u].(currentSubscription := None)])
      && (u !in db.users || db.users[u].currentSubscription != Some(k) ==> r.db.users == db.users)
    ensures e.kind != SubscriptionDeletedKind ==> r.db.users == db.users
    ensures r.notices != [] ==> signatureOk && e.kind == PaymentFailedKind && |r.notices| == 1
    ensures r.notices != [] ==>
      && Target(e).Some? && FindByExternal(db.subscriptions, Target(e).value).Some?
      && var u := db.subscriptions.rows[FindByExternal(db.subscriptions, Target(e).value).value].userId;
      && u in db.users && r.notices == [PaymentFailedNotice(u)]
  {
    if !signatureOk then WebhookOutcome(db, [], 400)
    else
      match Target(e)
      case None => WebhookOutcome(db, [], 200)
      case Some(ext) =>
        match FindByExternal(db.subscriptions, ext)
        case None => WebhookOutcome(db, [], 200)
        case Some(k) =>
          var row := db.subscriptions.rows[k];
          var db1 := db.(subscriptions := Put(db.subscriptions, k, Apply(e, row)));
          if e.kind == PaymentFailedKind then
            WebhookOutcome(db1, if row.userId in db.users then [PaymentFailedNotice(row.userId)] else [], 200)
          else if e.kind == SubscriptionDeletedKind && row.userId in db.users
                  && db.users[row.userId].currentSubscription == Some(k) then
            var users := db.users[row.userId := db.users[row.userId].(currentSubscription := None)];
            WebhookOutcome(db1.(users := users), [], 200)
          else
            WebhookOutcome(db1, [], 200)
  }

  /** A failed payment notifies the row's user exactly when that user
      exists; every other kind notifies nobody. */
  lemma FailedPaymentNotifies(db: Db, e: Event)
    requires db.subscriptions.Valid() && e.kind == PaymentFailedKind && Truthy(e.data.subscription)
    requires FindByExternal(db.subscriptions, e.data.subscription.value).Some?
    ensures var k := FindByExternal(db.subscriptions, e.data.subscription.value).value;
            var u := db.subscriptions.rows[k].userId;
            HandleWebhook(db, true, e).notices == if u in db.users then [PaymentFailedNotice(u)] else []
  {
  }

  /** The processor redelivers events: handling the same event twice
      leaves the state as handling it once, and a failed payment notifies
      again on each delivery. */
  lemma WebhookIdempotent(db: Db, e: Event)
    requires db.subscriptions.Valid()
    ensures var first := HandleWebhook(db, true, e);
            var second := HandleWebhook(first.db, true, e);
            second.db == first.db && second.notices == first.notices
  {
    var first := HandleWebhook(db, true, e);
    match Target(e)
    case None =>
    case Some(ext) =>
      match FindByExternal(db.subscriptions, ext)
      case None =>
      case Some(k) =>
        var row := db.subscriptions.rows[k];
        var v := Apply(e, row);
        assert v.stripeSubscriptionId == row.stripeSubscriptionId && v.userId == row.userId;
        FindByExternalAfterPut(db.subscriptions, ext, k, v);
        assert first.db.subscriptions == Put(db.subscriptions, k, v);
        assert FindByExternal(first.db.subscriptions, ext) == Some(k);
        assert Apply(e, v) == v;
        assert Put(first.db.subscriptions, k, v) == first.db.subscriptions;
  }

  /** The two dispatchers disagree on a deleted subscription: the routed
      one marks the row canceled, the unrouted service one expired. */
  lemma DispatchersDisagreeOnDeletion(db: Db, e: Event, now: int, freeRemote: Reply<RemoteSubscription>)
    requires db.subscriptions.Valid() && db.plans.Valid()
    requires e.kind == SubscriptionDeletedKind && FindByExternal(db.subscriptions, e.data.id).Some?
    ensures var k := FindByExternal(db.subscriptions, e.data.id).value;
            && HandleWebhook(db, true, e).db.subscriptions.rows[k].status == Canceled
            && ServiceHandleWebhook(db, true, e, now, freeRemote).db.subscriptions.rows[k].status == Expired
  {
  }
}

=== FILE: stripe_service.dfy ===
/** The subscription lifecycle (auth-stripe-service/src/services/stripeService.js):
    create, upgrade, cancel and reactivate commands, the payment-method
    listing, and the service's own webhook dispatcher. Every processor call
    is an oracle input; a command writes locally only after the reply it
    depends on has arrived, and a rejected reply writes nothing. */
module StripeService {
  import opened Common
  import opened Tables
  import opened Plans
  import Coupons
  import PlanService
  import opened Subscriptions

  /** The fields of a user document that the lifecycle reads and writes. */
  datatype User = User(stripeCustomerId: Option<string>, currentSubscription: Option<Id>)

  /** The collections the lifecycle touches. */
  datatype Db = Db(
    users: map<Id, User>,
    subscriptions: Store,
    plans: Catalogue,
    coupons: Coupons.Ledger)

  /** Why a command stopped. `UserNotFound` stands for the TypeError the
      source raises when the user lookup comes back empty. */
  datatype ServiceError =
    | UserNotFound
    | NoCustomer
    | AlreadySubscribed
    | PlanUnavailable
    | PaymentSetupFailed(message: string)
    | NoSubscription
    | NewPlanUnavailable
    | CurrentPlanNotFound
    | ProcessorFailed(message: string)

  /** A subscription as the processor reports it; times are in seconds. */
  datatype RemoteSubscription = RemoteSubscription(id: string, status: Status, currentPeriodEnd: int, cancelAtPeriodEnd: bool)

  /** `populate('currentSubscription')`: the user's pointer, when it still
      names a stored row. */
  function CurrentSubscription(db: Db, userId: Id): (r: Option<Id>)
    requires userId in db.users
    ensures r.Some? <==> db.users[userId].currentSubscription.Some?
                         && db.users[userId].currentSubscription.value in db.subscriptions.rows
    ensures r.Some? ==> r == db.users[userId].currentSubscription
  {
    var p := db.users[userId].currentSubscription;
    if p.Some? && p.value in db.subscriptions.rows then p else None
  }

  /** The processor coupon id passed along with a request: the coupon's
      external id when the coupon exists and is active, nothing otherwise.
      Neither its expiry nor its use count is looked at. */
  function CouponFor(coupons: Coupons.Ledger, couponId: Option<Id>): (r: Option<string>)
    ensures r.Some? ==> couponId.Some? && couponId.value in coupons.rows && coupons.rows[couponId.value].isActive
    ensures couponId.Some? && couponId.value in coupons.rows && coupons.rows[couponId.value].isActive
            ==> r == coupons.rows[couponId.value].stripeCouponId
  {
    match couponId
    case Some(c) => if c in coupons.rows && coupons.rows[c].isActive then coupons.rows[c].stripeCouponId else None
    case None => None
  }

  /** An active coupon that `isValid()` rejects (expired or used up) is
      still passed to the processor. */
  lemma UnusableCouponStillPassed(coupons: Coupons.Ledger, couponId: Id, now: int)
    requires couponId in coupons.rows && coupons.rows[couponId].isActive
    requires coupons.rows[couponId].stripeCouponId.Some? && !Coupons.IsValid(coupons.rows[couponId], now)
    ensures CouponFor(coupons, Some(couponId)).Some?
  {
  }

  /** What `subscriptions.create` is asked for. */
  datatype CreateRequest = CreateRequest(customer: string, price: Option<string>, coupon: Option<string>)

  datatype Created = Created(db: Db, id: Id, request: CreateRequest)

  /** The row `createSubscription` stores for an accepted processor
      subscription. */
  function MirrorRow(userId: Id, planId: Id, plan: Plan, s: RemoteSubscription, now: int): Subscription {
    Blank(userId, planId, now).(
      planType := plan.planType,
      status := s.status,
      stripeSubscriptionId := Some(s.id),
      currentPeriodEnd := Some(SecondsToMillis(s.currentPeriodEnd)),
      cancelAtPeriodEnd := s.cancelAtPeriodEnd)
  }

  /** `createSubscription`: refuse a user who already has an active or
      trialing row and a plan that is missing or inactive; attach the
      payment method when one is given; ask the processor for the
      subscription; store a row that mirrors the reply. The coupon's use
      count is never touched. */
  function CreateSubscription(db: Db, userId: Id, planId: Id, couponId: Option<Id>,
                              paymentMethodId: Option<string>, now: int,
                              attach: Ack, remote: Reply<RemoteSubscription>)
    : (r: Result<Created, ServiceError>)
    requires db.subscriptions.Valid()
    ensures r == Err(UserNotFound) <==> userId !in db.users
    ensures r == Err(NoCustomer) <==> userId in db.users && !Truthy(db.users[userId].stripeCustomerId)
    ensures r == Err(AlreadySubscribed) <==>
      userId in db.users && Truthy(db.users[userId].stripeCustomerId) && HasLive(db.subscriptions, userId)
    ensures r.Ok? ==> !HasLive(db.subscriptions, userId) && planId in db.plans.rows && db.plans.rows[planId].isActive
    ensures userId in db.users && Truthy(db.users[userId].stripeCustomerId) && !HasLive(db.subscriptions, userId)
            && !(planId in db.plans.rows && db.plans.rows[planId].isActive)
            ==> r == Err(PlanUnavailable)
    ensures r.Ok? <==>
      && userId in db.users && Truthy(db.users[userId].stripeCustomerId) && !HasLive(db.subscriptions, userId)
      && planId in db.plans.rows && db.plans.rows[planId].isActive
      && (Truthy(paymentMethodId) ==> attach.Ack?) && remote.Accepted?
    ensures r.Ok? ==>
      && r.value.db.users == db.users && r.value.db.plans == db.plans && r.value.db.coupons == db.coupons
      && r.value.id !in db.subscriptions.rows && r.value.db.subscriptions.Valid()
      && r.value.id in r.value.db.subscriptions.rows
      && r.value.db.subscriptions.rows == db.subscriptions.rows[r.value.id := r.value.db.subscriptions.rows[r.value.id]]
    ensures r.Ok? ==>
      var row := r.value.db.subscriptions.rows[r.value.id];
      && row.userId == userId && row.planId == planId
      && row.planType == db.plans.rows[planId].planType
      && row.status == remote.value.status
      && row.stripeSubscriptionId == Some(remote.value.id)
      && row.currentPeriodEnd == Some(remote.value.currentPeriodEnd * 1000)
      && row.cancelAtPeriodEnd == remote.value.cancelAtPeriodEnd
      && row.startDate == now
      && row.endDate.None? && row.lastBillingDate.None? && row.nextBillingDate.None?
    ensures r.Ok? ==>
      && r.value.request.customer == db.users[userId].stripeCustomerId.value
      && r.value.request.price == db.plans.rows[planId].stripePriceId
      && r.value.request.coupon == CouponFor(db.coupons, couponId)
    ensures r.Ok? && AtMostOneLive(db.subscriptions) ==> AtMostOneLive(r.value.db.subscriptions)
  {
    if userId !in db.users then Err(UserNotFound)
    else
      var user := db.users[userId];
      if !Truthy(user.stripeCustomerId) then Err(NoCustomer)
      else if HasLive(db.subscriptions, userId) then Err(AlreadySubscribed)
      else if !(planId in db.plans.rows && db.plans.rows[planId].isActive) then Err(PlanUnavailable)
      else if Truthy(paymentMethodId) && attach.Nack? then Err(PaymentSetupFailed(attach.message))
      else
        var plan := db.plans.rows[planId];
        var request := CreateRequest(user.stripeCustomerId.value, plan.stripePriceId, CouponFor(db.coupons, couponId));
        match remote
        case Rejected(m) => Err(ProcessorFailed(m))
        case Accepted(s) =>
          var row := MirrorRow(userId, planId, plan, s, now);
          var (store, id) := Insert(db.subscriptions, row);
          assert forall k :: k in store.rows && k != id ==> store.rows[k] == db.subscriptions.rows[k];
          Ok(Created(db.(subscriptions := store), id, request))
  }

  datatype Proration = AlwaysInvoice | NoProration

  /** What `subscriptions.retrieve` returns that the upgrade uses: the
      subscription id and its first item. */
  datatype RetrievedSubscription = RetrievedSubscription(id: string, firstItemId: string)

  /** What `subscriptions.update` is asked for on an upgrade. */
  datatype UpdateRequest = UpdateRequest(
    subscription: string,
    itemId: string,
    price: Option<string>,
    proration: Proration,
    coupon: Option<string>)

  /** The result of an upgrade: the new state, the request sent, and the
      plan the price comparison was made against. */
  datatype Upgraded = Upgraded(db: Db, request: UpdateRequest, fromPlan: Id)

  /** `Plan.findOne({ type, isActive: true })`. */
  function ActivePlanOfType(plans: Catalogue, t: PlanType): (r: Option<Id>)
    requires plans.Valid()
    ensures r.Some? ==> r.value in plans.rows && plans.rows[r.value].isActive && plans.rows[r.value].planType == t
    ensures r.None? <==> forall k :: k in plans.rows ==> !(plans.rows[k].isActive && plans.rows[k].planType == t)
  {
    FirstWhere(plans, (p: Plan) => p.isActive && p.planType == t)
  }

  /** Proration by strict price comparison: immediate invoicing only when
      the new plan costs more. */
  function ProrationFor(newPrice: int, currentPrice: int): (p: Proration)
    ensures p == AlwaysInvoice <==> newPrice > currentPrice
  {
    if newPrice > currentPrice then AlwaysInvoice else NoProration
  }

  /** `upgradeSubscription`: move the user's current subscription to an
      active plan. The comparison plan is the first active plan of the
      current row's plan type, not the row's own plan. Only the plan type,
      status, period end and cancellation flag of the row change. */
  function UpgradeSubscription(db: Db, userId: Id, newPlanId: Id, couponId: Option<Id>,
                               retrieved: Reply<RetrievedSubscription>, updated: Reply<RemoteSubscription>)
    : (r: Result<Upgraded, ServiceError>)
    requires db.plans.Valid()
    ensures r == Err(UserNotFound) <==> userId !in db.users
    ensures r == Err(NoSubscription) <==> userId in db.users && CurrentSubscription(db, userId).None?
    ensures r.Ok? ==> retrieved.Accepted? && updated.Accepted?
    ensures r.Ok? <==>
      && userId in db.users && CurrentSubscription(db, userId).Some?
      && newPlanId in db.plans.rows && db.plans.rows[newPlanId].isActive
      && ActivePlanOfType(db.plans, db.subscriptions.rows[CurrentSubscription(db, userId).value].planType).Some?
      && retrieved.Accepted? && updated.Accepted?
    ensures r.Ok? ==>
      && userId in db.users && CurrentSubscription(db, userId).Some?
      && newPlanId in db.plans.rows && db.plans.rows[newPlanId].isActive
      && r.value.fromPlan in db.plans.rows && db.plans.rows[r.value.fromPlan].isActive
      && r.value.fromPlan == ActivePlanOfType(db.plans, db.subscriptions.rows[CurrentSubscription(db, userId).value].planType).value
    ensures r.Ok? ==>
      var k := CurrentSubscription(db, userId).value;
      && db.plans.rows[r.value.fromPlan].planType == db.subscriptions.rows[k].planType
      && (r.value.request.proration == AlwaysInvoice <==>
            db.plans.rows[newPlanId].price > db.plans.rows[r.value.fromPlan].price)
      && r.value.request.price == db.plans.rows[newPlanId].stripePriceId
      && r.value.request.subscription == retrieved.value.id
      && r.value.request.itemId == retrieved.value.firstItemId
      && r.value.request.coupon == CouponFor(db.coupons, couponId)
      && r.value.db == db.(subscriptions := Put(db.subscriptions, k, db.subscriptions.rows[k].(
           planType := db.plans.rows[newPlanId].planType,
           status := updated.value.status,
           currentPeriodEnd := Some(updated.value.currentPeriodEnd * 1000),
           cancelAtPeriodEnd := updated.value.cancelAtPeriodEnd)))
  {
    if userId !in db.users then Err(UserNotFound)
    else
      match CurrentSubscription(db, userId)
      case None => Err(NoSubscription)
      case Some(k) =>
        if !(newPlanId in db.plans.rows && db.plans.rows[newPlanId].isActive) then Err(NewPlanUnavailable)
        else
          var current := db.subscriptions.rows[k];
          match ActivePlanOfType(db.plans, current.planType)
          case None => Err(CurrentPlanNotFound)
          case Some(cp) =>
            var newPlan := db.plans.rows[newPlanId];
            match retrieved
            case Rejected(m) => Err(ProcessorFailed(m))
            case Accepted(remote) =>
              var request := UpdateRequest(remote.id, remote.firstItemId, newPlan.stripePriceId,
                                           ProrationFor(newPlan.price, db.plans.rows[cp].price),
                                           CouponFor(db.coupons, couponId));
              match updated
              case Rejected(m) => Err(ProcessorFailed(m))
              case Accepted(s) =>
                var row := current.(planType := newPlan.planType,
                                    status := s.status,
                                    currentPeriodEnd := Some(SecondsToMillis(s.currentPeriodEnd)),
                                    cancelAtPeriodEnd := s.cancelAtPeriodEnd);
                Ok(Upgraded(db.(subscriptions := Put(db.subscriptions, k, row)), request, cp))
  }

  /** What `subscriptions.update` is asked for on cancel and reactivate. */
  datatype FlagRequest = FlagRequest(subscription: Option<string>, cancelAtPeriodEnd: bool)

  datatype Flagged = Flagged(db: Db, request: FlagRequest)

  /** Sets the current row's status and cancellation flag once the
      processor has answered the flag change. */
  function SetFlag(db: Db, userId: Id, status: Status, cancel: bool, remote: Reply<RemoteSubscription>)
    : (r: Result<Flagged, ServiceError>)
    ensures r == Err(UserNotFound) <==> userId !in db.users
    ensures r == Err(NoSubscription) <==> userId in db.users && CurrentSubscription(db, userId).None?
    ensures r.Ok? <==> userId in db.users && CurrentSubscription(db, userId).Some? && remote.Accepted?
    ensures r.Ok? ==>
      var k := CurrentSubscription(db, userId).value;
      && r.value.request == FlagRequest(db.subscriptions.rows[k].stripeSubscriptionId, cancel)
      && r.value.db == db.(subscriptions := Put(db.subscriptions, k,
           db.subscriptions.rows[k].(status := status, cancelAtPeriodEnd := cancel)))
  {
    if userId !in db.users then Err(UserNotFound)
    else
      match CurrentSubscription(db, userId)
      case None => Err(NoSubscription)
      case Some(k) =>
        var row := db.subscriptions.rows[k];
        match remote
        case Rejected(m) => Err(ProcessorFailed(m))
        case Accepted(_) =>
          Ok(Flagged(db.(subscriptions := Put(db.subscriptions, k, row.(status := status, cancelAtPeriodEnd := cancel))),
                     FlagRequest(row.stripeSubscriptionId, cancel)))
  }

  /** `cancelSubscription`: ask for cancellation at period end, then mark
      the current row canceled with `cancelAtPeriodEnd` set. */
  function CancelSubscription(db: Db, userId: Id, remote: Reply<RemoteSubscription>): (r: Result<Flagged, ServiceError>)
    ensures r == Err(NoSubscription) <==> userId in db.users && CurrentSubscription(db, userId).None?
    ensures r.Ok? <==> userId in db.users && CurrentSubscription(db, userId).Some? && remote.Accepted?
    ensures r.Ok? ==>
      var k := CurrentSubscription(db, userId).value;
      && r.value.request.cancelAtPeriodEnd
      && r.value.db.subscriptions.rows == db.subscriptions.rows[k :=
           db.subscriptions.rows[k].(status := Canceled, cancelAtPeriodEnd := true)]
      && r.value.db.subscriptions.next == db.subscriptions.next
      && r.value.db.users == db.users && r.value.db.plans == db.plans && r.value.db.coupons == db.coupons
  {
    SetFlag(db, userId, Canceled, true, remote)
  }

  /** `reactivateSubscription`: ask to keep the subscription, then mark the
      current row active with `cancelAtPeriodEnd` cleared. The period end
      is not consulted. */
  function ReactivateSubscription(db: Db, userId: Id, remote: Reply<RemoteSubscription>): (r: Result<Flagged, ServiceError>)
    ensures r == Err(NoSubscription) <==> userId in db.users && CurrentSubscription(db, userId).None?
    ensures r.Ok? <==> userId in db.users && CurrentSubscription(db, userId).Some? && remote.Accepted?
    ensures r.Ok? ==>
      var k := CurrentSubscription(db, userId).value;
      && !r.value.request.cancelAtPeriodEnd
      && r.value.db.subscriptions.rows == db.subscriptions.rows[k :=
           db.subscriptions.rows[k].(status := Active, cancelAtPeriodEnd := false)]
      && r.value.db.subscriptions.next == db.subscriptions.next
      && r.value.db.users == db.users && r.value.db.plans == db.plans && r.value.db.coupons == db.coupons
  {
    SetFlag(db, userId, Active, false, remote)
  }

  /** Cancel followed by reactivate leaves the row active and not
      cancelling, with every other field as before the cancel, whatever
      the period end. */
  lemma CancelThenReactivate(db: Db, userId: Id, r1: Reply<RemoteSubscription>, r2: Reply<RemoteSubscription>)
    requires CancelSubscription(db, userId, r1).Ok? && r2.Accepted?
    ensures var db1 := CancelSubscription(db, userId, r1).value.db;
            var k := CurrentSubscription(db, userId).value;
            && ReactivateSubscription(db1, userId, r2).Ok?
            && ReactivateSubscription(db1, userId, r2).value.db.subscriptions.rows
               == db.subscriptions.rows[k := db.subscriptions.rows[k].(status := Active, cancelAtPeriodEnd := false)]
  {
  }

  /** A user whose current subscription was canceled may subscribe again
      (a canceled row is not live); reactivating the old subscription
      afterwards leaves the user with two live rows, so the creation check
      alone does not keep one running subscription per user. */
  lemma ResubscribeThenReactivateBreaksOneLive(db: Db, userId: Id, r1: Reply<RemoteSubscription>,
                                               planId: Id, couponId: Option<Id>, paymentMethodId: Option<string>,
                                               now: int, attach: Ack, remote: Reply<RemoteSubscription>,
                                               r2: Reply<RemoteSubscription>)
    requires db.subscriptions.Valid() && CancelSubscription(db, userId, r1).Ok?
    requires db.subscriptions.rows[CurrentSubscription(db, userId).value].userId == userId
    requires CreateSubscription(CancelSubscription(db, userId, r1).value.db, userId, planId, couponId,
                                paymentMethodId, now, attach, remote).Ok?
    requires remote.value.status == Active || remote.value.status == Trialing
    requires r2.Accepted?
    ensures var db1 := CancelSubscription(db, userId, r1).value.db;
            var c := CreateSubscription(db1, userId, planId, couponId, paymentMethodId, now, attach, remote).value;
            && ReactivateSubscription(c.db, userId, r2).Ok?
            && !AtMostOneLive(ReactivateSubscription(c.db, userId, r2).value.db.subscriptions)
  {
  }

  /** A concrete history for the lemma above: one user with one active
      monthly subscription cancels it, subscribes again with a card, and
      reactivates the old one. */
  const DemoPlan: Plan := Plan("Pro", "Pro plan", Monthly, 10, [], Some("price_pro"), Some("prod_pro"), true)
  const DemoRow: Subscription := MirrorRow(0, 0, DemoPlan, RemoteSubscription("sub_1", Active, 100, false), 0)
  const DemoDb: Db := Db(map[0 := User(Some("cus_1"), Some(0))], Table(map[0 := DemoRow], 1),
                         Table(map[0 := DemoPlan], 1), Table(map[], 0))
  const DemoFlag: Reply<RemoteSubscription> := Accepted(RemoteSubscription("sub_1", Active, 100, true))
  const DemoRemote: Reply<RemoteSubscription> := Accepted(RemoteSubscription("sub_2", Active, 200, false))

  lemma CancelCreateReactivateLeavesTwoActive()
    ensures AtMostOneLive(DemoDb.subscriptions)
    ensures CancelSubscription(DemoDb, 0, DemoFlag).Ok?
    ensures var db1 := CancelSubscription(DemoDb, 0, DemoFlag).value.db;
            var c := CreateSubscription(db1, 0, 0, None, Some("pm_1"), 5, Ack, DemoRemote);
            && c.Ok?
            && ReactivateSubscription(c.value.db, 0, DemoFlag).Ok?
            && !AtMostOneLive(ReactivateSubscription(c.value.db, 0, DemoFlag).value.db.subscriptions)
  {
  }

  /** A card as the processor lists it. */
  datatype Card = Card(id: string, brand: string, last4: string, expMonth: int, expYear: int)

  /** A card as `getPaymentMethods` returns it. */
  datatype PaymentMethodView = PaymentMethodView(id: string, brand: string, last4: string,
                                                 expMonth: int, expYear: int, isDefault: bool)

  /** `getPaymentMethods`: the customer's cards in the processor's order,
      each flagged default exactly when its id is the customer's default
      payment method. */
  method GetPaymentMethods(db: Db, userId: Id, listed: seq<Card>, defaultMethod: Option<string>)
    returns (r: Result<seq<PaymentMethodView>, ServiceError>)
    ensures r == Err(UserNotFound) <==> userId !in db.users
    ensures r == Err(NoCustomer) <==> userId in db.users && !Truthy(db.users[userId].stripeCustomerId)
    ensures r.Ok? <==> userId in db.users && Truthy(db.users[userId].stripeCustomerId)
    ensures r.Ok? ==> |r.value| == |listed|
    ensures r.Ok? ==> forall i :: 0 <= i < |listed| ==>
      && r.value[i].id == listed[i].id && r.value[i].brand == listed[i].brand
      && r.value[i].last4 == listed[i].last4
      && r.value[i].expMonth == listed[i].expMonth && r.value[i].expYear == listed[i].expYear
      && (r.value[i].isDefault <==> defaultMethod == Some(listed[i].id))
    ensures r.Ok? && (forall i, j :: 0 <= i < j < |listed| ==> listed[i].id != listed[j].id) ==>
      forall i, j :: 0 <= i < j < |r.value| ==> !(r.value[i].isDefault && r.value[j].isDefault)
  {
    if userId !in db.users {
      return Err(UserNotFound);
    }
    if !Truthy(db.users[userId].stripeCustomerId) {
      return Err(NoCustomer);
    }
    var views: seq<PaymentMethodView> := [];
    var i := 0;
    while i < |listed|
      invariant 0 <= i <= |listed| && |views| == i
      invariant forall j :: 0 <= j < i ==>
        views[j] == PaymentMethodView(listed[j].id, listed[j].brand, listed[j].last4,
                                      listed[j].expMonth, listed[j].expYear, defaultMethod == Some(listed[j].id))
    {
      var pm := listed[i];
      views := views + [PaymentMethodView(pm.id, pm.brand, pm.last4, pm.expMonth, pm.expYear, defaultMethod == Some(pm.id))];
      i := i + 1;
    }
    return Ok(views);
  }

  /** The webhook event kinds both dispatchers handle. */
  const PaymentSucceededKind: string := "invoice.payment_succeeded"
  const PaymentFailedKind: string := "invoice.payment_failed"
  const SubscriptionUpdatedKind: string := "customer.subscription.updated"
  const SubscriptionDeletedKind: string := "customer.subscription.deleted"

  predicate HandledKind(kind: string) {
    kind == PaymentSucceededKind || kind == PaymentFailedKind
    || kind == SubscriptionUpdatedKind || kind == SubscriptionDeletedKind
  }

  /** The `data.object` of an event: an invoice (`subscription`,
      `periodEnd`) or a subscription (`id`, `status`, `cancelAtPeriodEnd`,
      `currentPeriodEnd`), times in seconds. A field the kind does not use
      is ignored. */
  datatype StripeObject = StripeObject(
    id: string,
    subscription: Option<string>,
    status: Status,
    cancelAtPeriodEnd: bool,
    currentPeriodEnd: int,
    periodEnd: int)

  datatype Event = Event(kind: string, data: StripeObject)

  /** Notifications are emitted, not sent: only their kind and recipient
      are modelled. */
  datatype Notification =
    | PaymentFailedNotice(user: Id)
    | EndingSoonNotice(user: Id, subscription: Id)
    | EndedNotice(user: Id)

  /** A subscription whose next billing date is at most 7 whole days
      (rounded up) away gets an ending-soon notice. */
  predicate EndingSoon(nextBilling: int, now: int) {
    CeilDays(nextBilling - now) <= 7
  }

  /** Rounding up to whole days, "at most 7 days" means "at most exactly
      7 * 24 hours". */
  lemma EndingSoonIff(nextBilling: int, now: int)
    ensures EndingSoon(nextBilling, now) <==> nextBilling - now <= 7 * MillisPerDay
  {
  }

  /** What the service dispatcher leaves behind: the state, the notices,
      and whether it ended by throwing (the writes made before the throw
      stay). */
  datatype ServiceOutcome = ServiceOutcome(db: Db, notices: seq<Notification>, thrown: bool)

  /** `handleSubscriptionUpdated`: copy the status, stamp the next billing
      date from the period end, and warn the user when that is at most 7
      days away. A missing user makes the warning throw after the write. */
  function ServiceSubscriptionUpdated(db: Db, obj: StripeObject, now: int): (r: ServiceOutcome)
    requires db.subscriptions.Valid()
    ensures FindByExternal(db.subscriptions, obj.id).None? ==> r == ServiceOutcome(db, [], false)
    ensures FindByExternal(db.subscriptions, obj.id).Some? ==>
      var k := FindByExternal(db.subscriptions, obj.id).value;
      var row := db.subscriptions.rows[k];
      && r.db == db.(subscriptions := Put(db.subscriptions, k, row.(
           status := obj.status, nextBillingDate := Some(obj.currentPeriodEnd * 1000))))
      && (r.notices != [] <==> EndingSoon(obj.currentPeriodEnd * 1000, now) && row.userId in db.users)
      && (r.notices != [] ==> r.notices == [EndingSoonNotice(row.userId, k)])
      && (r.thrown <==> EndingSoon(obj.currentPeriodEnd * 1000, now) && row.userId !in db.users)
  {
    match FindByExternal(db.subscriptions, obj.id)
    case None => ServiceOutcome(db, [], false)
    case Some(k) =>
      var next := SecondsToMillis(obj.currentPeriodEnd);
      var row := db.subscriptions.rows[k].(status := obj.status, nextBillingDate := Some(next));
      var db' := db.(subscriptions := Put(db.subscriptions, k, row));
      if EndingSoon(next, now) then
        if row.userId in db.users then ServiceOutcome(db', [EndingSoonNotice(row.userId, k)], false)
        else ServiceOutcome(db', [], true)
      else ServiceOutcome(db', [], false)
  }

  /** `handleSubscriptionDeleted`: mark the row expired, then subscribe
      the user to the free plan (when there is one) through
      `createSubscription` with no coupon and no payment method, and tell
      the user. A failure of that creation throws after the expiry is
      saved. */
  function ServiceSubscriptionDeleted(db: Db, obj: StripeObject, now: int, freeRemote: Reply<RemoteSubscription>)
    : (r: ServiceOutcome)
    requires db.subscriptions.Valid() && db.plans.Valid()
    ensures FindByExternal(db.subscriptions, obj.id).None? ==> r == ServiceOutcome(db, [], false)
    ensures FindByExternal(db.subscriptions, obj.id).Some? ==>
      var k := FindByExternal(db.subscriptions, obj.id).value;
      && k in r.db.subscriptions.rows
      && r.db.subscriptions.rows[k] == db.subscriptions.rows[k].(status := Expired)
      && (r.notices != [] ==> r.notices == [EndedNotice(db.subscriptions.rows[k].userId)] && !r.thrown)
      && (r.notices != [] <==> PlanService.GetFreePlan(db.plans).Some? && !r.thrown)
    ensures r.db.users == db.users && r.db.plans == db.plans && r.db.coupons == db.coupons
    ensures FindByExternal(db.subscriptions, obj.id).Some? ==>
      var k := FindByExternal(db.subscriptions, obj.id).value;
      var owner := db.subscriptions.rows[k].userId;
      var db1 := db.(subscriptions := Put(db.subscriptions, k, db.subscriptions.rows[k].(status := Expired)));
      && (r.notices == [] ==> r.db == db1)
      && (r.thrown <==>
            && PlanService.GetFreePlan(db.plans).Some?
            && !(&& owner in db.users && Truthy(db.users[owner].stripeCustomerId)
                 && !HasLive(db1.subscriptions, owner) && freeRemote.Accepted?))
      && (r.notices != [] ==>
            var c := CreateSubscription(db1, owner, PlanService.GetFreePlan(db.plans).value, None, None, now, Ack, freeRemote);
            && c.Ok? && r.db == c.value.db
            && c.value.id !in db.subscriptions.rows
            && r.db.subscriptions.rows == db1.subscriptions.rows[c.value.id := r.db.subscriptions.rows[c.value.id]]
            && r.db.subscriptions.rows[c.value.id].userId == owner
            && r.db.subscriptions.rows[c.value.id].planId == PlanService.GetFreePlan(db.plans).value
            && r.db.subscriptions.rows[c.value.id].status == freeRemote.value.status)
  {
    match FindByExternal(db.subscriptions, obj.id)
    case None => ServiceOutcome(db, [], false)
    case Some(k) =>
      var row := db.subscriptions.rows[k];
      var db1 := db.(subscriptions := Put(db.subscriptions, k, row.(status := Expired)));
      match PlanService.GetFreePlan(db.plans)
      case None => ServiceOutcome(db1, [], false)
      case Some(free) =>
        if row.userId !in db.users then ServiceOutcome(db1, [], true)
        else
          match CreateSubscription(db1, row.userId, free, None, None, now, Ack, freeRemote)
          case Err(_) => ServiceOutcome(db1, [], true)
          case Ok(c) => ServiceOutcome(c.db, [EndedNotice(row.userId)], false)
  }

  /** `handlePaymentSucceeded`: stamp the billing date and mark the row
      active. An invoice without a subscription matches no row. */
  function ServicePaymentSucceeded(db: Db, obj: StripeObject, now: int): (r: ServiceOutcome)
    requires db.subscriptions.Valid()
    ensures r.notices == [] && !r.thrown
    ensures (obj.subscription.None? || FindByExternal(db.subscriptions, obj.subscription.value).None?) ==> r.db == db
    ensures obj.subscription.Some? && FindByExternal(db.subscriptions, obj.subscription.value).Some? ==>
      var k := FindByExternal(db.subscriptions, obj.subscription.value).value;
      r.db == db.(subscriptions := Put(db.subscriptions, k,
                   db.subscriptions.rows[k].(lastBillingDate := Some(now), status := Active)))
  {
    match obj.subscription
    case None => ServiceOutcome(db, [], false)
    case Some(ext) =>
      match FindByExternal(db.subscriptions, ext)
      case None => ServiceOutcome(db, [], false)
      case Some(k) =>
        var row := db.subscriptions.rows[k].(lastBillingDate := Some(now), status := Active);
        ServiceOutcome(db.(subscriptions := Put(db.subscriptions, k, row)), [], false)
  }

  /** `handlePaymentFailed`: no status change, only a notice to the row's
      user; a missing user throws. */
  function ServicePaymentFailed(db: Db, obj: StripeObject): (r: ServiceOutcome)
    requires db.subscriptions.Valid()
    ensures r.db == db
    ensures r.notices != [] <==> obj.subscription.Some?
                                 && FindByExternal(db.subscriptions, obj.subscription.value).Some?
                                 && db.subscriptions.rows[FindByExternal(db.subscriptions, obj.subscription.value).value].userId in db.users
    ensures r.thrown ==> r.notices == []
    ensures r.notices != [] ==>
      r.notices == [PaymentFailedNotice(db.subscriptions.rows[FindByExternal(db.subscriptions, obj.subscription.value).value].userId)]
    ensures r.thrown <==> obj.subscription.Some?
                          && FindByExternal(db.subscriptions, obj.subscription.value).Some?
                          && db.subscriptions.rows[FindByExternal(db.subscriptions, obj.subscription.value).value].userId !in db.users
  {
    match obj.subscription
    case None => ServiceOutcome(db, [], false)
    case Some(ext) =>
      match FindByExternal(db.subscriptions, ext)
      case None => ServiceOutcome(db, [], false)
      case Some(k) =>
        var user := db.subscriptions.rows[k].userId;
        if user in db.users then ServiceOutcome(db, [PaymentFailedNotice(user)], false)
        else ServiceOutcome(db, [], true)
  }

  /** `StripeService.handleWebhook`, which no route reaches: a signature
      failure throws; an unknown kind is returned untouched. */
  function ServiceHandleWebhook(db: Db, signatureOk: bool, e: Event, now: int, freeRemote: Reply<RemoteSubscription>)
    : (r: ServiceOutcome)
    requires db.subscriptions.Valid() && db.plans.Valid()
    ensures !signatureOk ==> r == ServiceOutcome(db, [], true)
    ensures signatureOk && !HandledKind(e.kind) ==> r == ServiceOutcome(db, [], false)
    ensures signatureOk && e.kind == PaymentFailedKind ==> r.db == db
  {
    if !signatureOk then ServiceOutcome(db, [], true)
    else if e.kind == SubscriptionUpdatedKind then ServiceSubscriptionUpdated(db, e.data, now)
    else if e.kind == SubscriptionDeletedKind then ServiceSubscriptionDeleted(db, e.data, now, freeRemote)
    else if e.kind == PaymentSucceededKind then ServicePaymentSucceeded(db, e.data, now)
    else if e.kind == PaymentFailedKind then ServicePaymentFailed(db, e.data)
    else ServiceOutcome(db, [], false)
  }
}

=== FILE: subscriptions.dfy ===
/** The subscription document (auth-stripe-service/src/models/Subscription.js)
    and the lookups the lifecycle code runs against the subscription
    collection. */
module Subscriptions {
  import opened Common
  import opened Tables
  import opened Plans

  /** The `status` enum, mirroring the processor's subscription states. */
  datatype Status = Active | Canceled | Expired | Incomplete | IncompleteExpired | PastDue | Trialing | Unpaid

  /** A subscription document. Dates are milliseconds. `currentPeriodEnd`
      is the value the lifecycle code writes. The schema does not declare
      it, so under the schema's default strict mode the write is not
      stored; the field records the code's intent. */
  datatype Subscription = Subscription(
    userId: Id,
    stripeSubscriptionId: Option<string>,
    planId: Id,
    planType: PlanType,
    status: Status,
    startDate: int,
    endDate: Option<int>,
    cancelAtPeriodEnd: bool,
    lastBillingDate: Option<int>,
    nextBillingDate: Option<int>,
    currentPeriodEnd: Option<int>)

  type Store = Table<Subscription>

  /** A new document with the schema's defaults: no external id yet, plan
      type free, status active, started now, not cancelling. */
  function Blank(userId: Id, planId: Id, now: int): Subscription {
    Subscription(userId, None, planId, Free, Active, now, None, false, None, None, None)
  }

  /** The statuses that count as a running subscription when a new one is
      requested. */
  predicate Live(s: Subscription) {
    s.status == Active || s.status == Trialing
  }

  /** `findOne({ stripeSubscriptionId: ext })`. */
  function FindByExternal(store: Store, ext: string): (r: Option<Id>)
    requires store.Valid()
    ensures r.Some? ==> r.value in store.rows && store.rows[r.value].stripeSubscriptionId == Some(ext)
    ensures r.None? <==> forall k :: k in store.rows ==> store.rows[k].stripeSubscriptionId != Some(ext)
  {
    FirstWhere(store, (s: Subscription) => s.stripeSubscriptionId == Some(ext))
  }

  /** Overwriting a row without touching its external id leaves every
      lookup by external id as it was. */
  lemma FindByExternalAfterPut(store: Store, ext: string, k: Id, v: Subscription)
    requires store.Valid() && k in store.rows
    requires v.stripeSubscriptionId == store.rows[k].stripeSubscriptionId
    ensures FindByExternal(Put(store, k, v), ext) == FindByExternal(store, ext)
  {
  }

  /** Some row of this user is active or trialing. */
  predicate HasLive(store: Store, userId: Id) {
    exists k :: k in store.rows && store.rows[k].userId == userId && Live(store.rows[k])
  }

  /** The invariant the creation check is meant to keep: no user has two
      active-or-trialing rows. */
  predicate AtMostOneLive(store: Store) {
    forall a, b :: a in store.rows && b in store.rows && a != b && Live(store.rows[a]) && Live(store.rows[b])
      ==> store.rows[a].userId != store.rows[b].userId
  }
}

=== FILE: tables.dfy ===
/** A document collection: rows keyed by ids handed out in increasing
    order, so ascending ids are insertion order. A query that returns one
    document (`findOne`) returns the first match in that order; a query
    that returns many (`find`) returns the matches in that order. */
module Tables {
  import opened Common

  type Id = nat

  datatype Table<T> = Table(rows: map<Id, T>, next: Id) {
    /** Every id in use was handed out before `next`. */
    predicate Valid() {
      forall k :: k in rows ==> k < next
    }
  }

  /** Inserts a new document under a fresh id. */
  function Insert<T>(t: Table<T>, v: T): (r: (Table<T>, Id))
    requires t.Valid()
    ensures r.0.Valid()
    ensures r.1 !in t.rows && r.0.rows == t.rows[r.1 := v]
  {
    (Table(t.rows[t.next := v], t.next + 1), t.next)
  }

  /** Overwrites an existing document. */
  function Put<T>(t: Table<T>, k: Id, v: T): (r: Table<T>)
    requires k in t.rows
    ensures t.Valid() ==> r.Valid()
    ensures r.rows.Keys == t.rows.Keys && r.next == t.next
  {
    t.(rows := t.rows[k := v])
  }

  /** First id at or after `from` whose document satisfies `p`. */
  function FirstFrom<T>(t: Table<T>, p: T -> bool, from: Id): (r: Option<Id>)
    decreases t.next - from
    ensures r.Some? ==> from <= r.value < t.next && r.value in t.rows && p(t.rows[r.value])
    ensures r.Some? ==> forall k :: from <= k < r.value && k in t.rows ==> !p(t.rows[k])
    ensures r.None? ==> forall k :: from <= k < t.next && k in t.rows ==> !p(t.rows[k])
  {
    if from >= t.next then None
    else if from in t.rows && p(t.rows[from]) then Some(from)
    else FirstFrom(t, p, from + 1)
  }

  /** `findOne(filter)`: the first document, in insertion order, that
      satisfies the filter; none exactly when no document does. */
  function FirstWhere<T>(t: Table<T>, p: T -> bool): (r: Option<Id>)
    requires t.Valid()
    ensures r.Some? ==> r.value in t.rows && p(t.rows[r.value])
    ensures r.Some? ==> forall k :: k in t.rows && k < r.value ==> !p(t.rows[k])
    ensures r.None? <==> forall k :: k in t.rows ==> !p(t.rows[k])
  {
    FirstFrom(t, p, 0)
  }

  /** Ids at or after `from` whose documents satisfy `p`, ascending. */
  function WhereFrom<T>(t: Table<T>, p: T -> bool, from: Id): (r: seq<Id>)
    decreases t.next - from
    ensures forall i :: 0 <= i < |r| ==> from <= r[i] && r[i] in t.rows && p(t.rows[r[i]])
    ensures forall k :: from <= k < t.next && k in t.rows && p(t.rows[k]) ==> k in r
    ensures forall i, j :: 0 <= i < j < |r| ==> r[i] < r[j]
  {
    if from >= t.next then []
    else if from in t.rows && p(t.rows[from]) then [from] + WhereFrom(t, p, from + 1)
    else WhereFrom(t, p, from + 1)
  }

  /** `find(filter)`: every document satisfying the filter, once each, in
      insertion order. */
  function Where<T>(t: Table<T>, p: T -> bool): (r: seq<Id>)
    requires t.Valid()
    ensures forall k :: k in r <==> k in t.rows && p(t.rows[k])
    ensures forall i, j :: 0 <= i < j < |r| ==> r[i] < r[j]
  {
    WhereFrom(t, p, 0)
  }
}
